=== FILE: README.md ===
# Motorcycle photo prompts: assembler, attribute selection, URL extraction

This project is a Dafny model of the pure logic behind a pipeline that
generates marketing photographs of motorcycles. It covers three pieces.

- **Prompt assembler** (`PromptGenerator.build_motorcycle_prompt`,
  `prompt_generator.dfy`).
  - It builds a fixed ten-slot sentence from the model name, city,
    environment, action, rider, lighting, extras, composition and camera
    distance.
  - It substitutes defaults for an empty composition or camera distance.
  - It drops empty slots, joins the rest with single spaces, runs one pass
    of `replace("  ", " ")`, and strips the result.
  - The Python string built-ins it relies on are modelled in `text.dfy`:
    `str.strip`, the single-pass non-overlapping replace, `str.join`, and
    the `if p` filter.
- **Attribute selection** (`randomPromptGenerator`,
  `random_prompt_generator.dfy`, over the catalog of `catalog.dfy`).
  - It classifies the free-form motorcycle type into one of six label lists,
    falling back to the city partition.
  - It picks environments and flat attributes (action, lighting, style
    extra, composition, camera distance, and the four variety lists).
  - It samples variety elements without reusing a position, appends them to
    a prompt, and assembles the eight-key combination dictionary.
  - Every `random.choice` / `random.sample` becomes a caller-supplied draw: a
    natural number, or a sequence of them. The catalog is an immutable
    value.
- **Output URL extraction and data URLs** (`utils.dfy`).
  - `extraer_url_imagen` is a priority-ordered case analysis over the shape
    of a remote result. The result is a sum type of Python values, and the
    two `RuntimeError`s become a `Result`.
  - The model also covers the `data:<mime>;base64,<payload>` string that
    `imagen_a_data_url` builds, with its `image/png` default.

`wrappers.dfy` holds the `Option` and `Result` types.

Strings are sequences of code points. `IsWhitespace` is Python's
`str.isspace` set, which `strip()` removes. The replace only ever looks at
ASCII spaces.

## Behaviour worth knowing

The model follows the code as written, including where it does less than
its own comments and docstrings suggest.

- **Slot order.** The action slot comes before the rider slot
  (`src/processors/prompt_generator.py:35-37`), as the docstring's outline
  "4) Acción … 5) Conductor" (`:20-21`) lists them
  (`PromptGenerator.PromptSlotOrder`).
- **Model name.** The model name is interpolated without stripping
  (`:28`). Only the replace at `:46` touches its spaces.
  - One leading ASCII space followed by a non-space character pairs with
    the space that ends `"…photograph of a "`, and the replace removes it.
    The prompt is the one for the model without that space
    (`PromptGenerator.LeadingSpaceAbsorbed`).
  - One trailing ASCII space after a non-space character pairs with the
    space before `motorcycle`, and is removed the same way
    (`PromptGenerator.TrailingSpaceAbsorbed`).
  - A model made of a single space leaves `"…of a  motorcycle"`, with a
    pair of spaces (`PromptGenerator.SpaceModelLeavesPair`). The empty
    model gives `"…of a motorcycle"`
    (`PromptGenerator.EmptyModelHeader`).
  - Any other outer whitespace, such as a tab, survives inside the header.
    So does part of a run of two or more spaces.
- **Whitespace-only composition or camera distance.** Such text is stripped
  to the empty string and dropped. It does not receive the default, which
  only an exactly empty value gets (`:39-40`).
- **Space cleanup.** The comment "Une y limpia espacios dobles" (`:45`)
  announces a cleanup of double spaces, but the code runs one pass of a
  non-overlapping replace (`:46`). A run of `k` spaces becomes `ceil(k/2)`
  spaces (`Text.ReplaceHalvesSpaceRun`), and any model holding three
  adjacent spaces leaves a pair of spaces in the prompt
  (`PromptGenerator.SinglePassLeavesDoubleSpace`).
- **Mapping output without `url`.** A non-empty mapping without a `url` key
  yields `None`, not an error (`src/utils/utils.py:52-53`).
- **List whose first element is a mapping.** This is an error, because only
  attribute access is tried on the element.
- **Selection is a plain draw.** Every picker is one `random.choice` over a
  whole list or mapping (`src/utils/random_prompt_generator.py:21-93`):
  nothing avoids repeating the previous value, suppresses the rider or
  remembers earlier choices. `ACTIONS` and `STYLE_EXTRAS` are read as flat
  mappings.

## Model

| member | source | states |
|---|---|---|
| `PromptGenerator.PromptSlotOrder` | src/processors/prompt_generator.py:26-46 | When no input holds a pair of spaces, the model is clean and every optional field holds non-whitespace text, the prompt is exactly: header with the model, design clause, environment, `in <city>`, action, rider, composition, camera distance, lighting, extras, stripped and one space apart. Action precedes rider. |
| `PromptGenerator.Slots` | src/processors/prompt_generator.py:26-44 | The `parts` list has exactly ten entries, one per slot (their contents are stated by `SlotsShape` and `PromptSlotOrder`). |
| `PromptGenerator.SlotsShape` | src/processors/prompt_generator.py:26-44 | No slot has outer whitespace. Header and design clause are always present. The city slot is present iff the city is not blank, and then reads `in ` plus the stripped city. Composition and camera distance take their defaults iff empty, are stripped otherwise, and are dropped iff non-empty but blank. |
| `PromptGenerator.SlotAt` | src/processors/prompt_generator.py:26-44 | Every slot, whatever the inputs, begins and ends with a non-whitespace character or is empty. |
| `PromptGenerator.HeaderSlot` | src/processors/prompt_generator.py:28 | The header is never empty and never has outer whitespace, whatever the model text. |
| `PromptGenerator.CitySlot` | src/processors/prompt_generator.py:33 | The slot is present exactly when `city.strip()` is non-empty, and then it is `"in "` followed by `city.strip()`. It has no outer whitespace. |
| `PromptGenerator.OptionalSlot` | src/processors/prompt_generator.py:37 | `x.strip() if x else ""` is exactly `strip(x)`: the guard never changes the slot. |
| `PromptGenerator.DefaultedSlot` | src/processors/prompt_generator.py:39-40 | An empty value gives the default. A blank non-empty value gives the empty slot. Anything else is stripped. The slot never has outer whitespace. |
| `PromptGenerator.BuildMotorcyclePrompt` | src/processors/prompt_generator.py:46 | The prompt is never empty and never begins or ends with whitespace. |
| `PromptGenerator.FinalStripIsNoOp` | src/processors/prompt_generator.py:46 | The final `strip()` removes nothing: the prompt is exactly the replaced join of the non-empty slots. |
| `PromptGenerator.OmittedSlotLeavesNoSeparator` | src/processors/prompt_generator.py:46 | An empty slot leaves no separator: the prompt equals the one built from the list with that slot removed. |
| `PromptGenerator.CleanInputsJoinExactly` | src/processors/prompt_generator.py:28-46 | Suppose no input holds a pair of spaces and the model is non-empty without a leading or trailing space. Then the prompt is exactly the single-space join of the non-empty slots. |
| `PromptGenerator.HeaderPrefix` | src/processors/prompt_generator.py:28-46 | When the model does not start with a space, the prompt starts with `"Professional realistic photograph of a "` followed by the model as the replace leaves it. The model is never stripped. |
| `PromptGenerator.HeaderPrefixVerbatim` | src/processors/prompt_generator.py:28-46 | When the model also holds no pair of spaces, the prompt starts with the header lead and the model verbatim. |
| `PromptGenerator.LeadingSpaceAbsorbed` | src/processors/prompt_generator.py:28-46 | A model with one leading space followed by a non-space gives the same prompt as the model without that space: the space pairs with the header's own and the replace removes it. |
| `PromptGenerator.TrailingSpaceAbsorbed` | src/processors/prompt_generator.py:28-46 | A model with one trailing space after a non-space gives the same prompt as the model without that space: the space pairs with the one before `motorcycle`. |
| `PromptGenerator.SpaceModelLeavesPair` | src/processors/prompt_generator.py:28-46 | A model of exactly one space gives three spaces in the header; the single replace pass leaves two of them, so the prompt still holds a double space. |
| `PromptGenerator.EmptyModelHeader` | src/processors/prompt_generator.py:28-46 | With an empty model the header's two spaces merge into one, and the prompt starts `"Professional realistic photograph of a motorcycle"`. |
| `PromptGenerator.StrippedFieldsSamePrompt` | src/processors/prompt_generator.py:32-43 | The assembler sees only the stripped optional texts, and for composition and camera distance also whether they were empty. Pre-stripping them gives the same prompt. |
| `Text.TripleSpaceLeavesPair` | src/processors/prompt_generator.py:46 | Wherever a text holds three adjacent spaces, one pass of the replace leaves a pair of adjacent spaces. |
| `PromptGenerator.SinglePassLeavesDoubleSpace` | src/processors/prompt_generator.py:28-46 | Any model holding three adjacent spaces leaves a pair of spaces in the prompt: the cleanup is single-pass and does not remove every double space. |
| `Text.Strip` | src/processors/prompt_generator.py:32 | `Text.IsWhitespace` is the set of code points `str.isspace` accepts, which `strip()` removes. `strip()` leaves no outer whitespace, and its result is empty iff the text is all whitespace. |
| `Text.StripIsSlice` | src/processors/prompt_generator.py:32 | `strip()` keeps the contiguous slice that starts right after the leading whitespace, and only whitespace follows it. |
| `Text.StripIdempotent` | src/processors/prompt_generator.py:32 | Stripping twice is stripping once. |
| `Text.ReplaceDoubleSpace` | src/processors/prompt_generator.py:46 | `replace("  ", " ")` never lengthens a text and keeps its first character. |
| `Text.ReplaceIsIdentityIff` | src/processors/prompt_generator.py:46 | `replace("  ", " ")` changes a text iff the text holds a pair of adjacent spaces. |
| `Text.ReplaceSplit` | src/processors/prompt_generator.py:46 | Text that does not end in a space is scanned on its own: the replace of `a + b` is the replace of `a` followed by the replace of `b`. |
| `Text.ReplaceHalvesSpaceRun` | src/processors/prompt_generator.py:46 | A run of `k` spaces becomes `ceil(k/2)` spaces, not one. |
| `Text.ReplacePrefix` | src/processors/prompt_generator.py:46 | The replace of a prefix is a prefix of the replace of the whole: the scan never revisits text. |
| `Text.ReplaceCleanPrefix` | src/processors/prompt_generator.py:46 | Text without a pair of spaces passes through unchanged, provided its last space does not pair with the next character. |
| `Text.NonEmpty` | src/processors/prompt_generator.py:46 | The `if p` filter keeps exactly the non-empty parts. |
| `Text.NonEmptyConcat` | src/processors/prompt_generator.py:46 | Filtering a concatenation is concatenating the filtered halves, so the filter keeps the parts' order. |
| `Text.JoinSkipsEmpty` | src/processors/prompt_generator.py:46 | An empty part inserted anywhere does not change the filtered join. |
| `Text.JoinSnoc` | src/utils/random_prompt_generator.py:131 | `sep.join` (here `", ".join`, and `" ".join` at `prompt_generator.py:46`) of a non-empty list with one more part appended is the old join, then `sep`, then that part. With the empty and one-part cases this determines the join of every list. |
| `Text.JoinEdges` | src/processors/prompt_generator.py:46 | A join of non-empty parts is non-empty, starts with the first part's first character and ends with the last part's last character. |
| `Text.JoinCleanParts` | src/processors/prompt_generator.py:46 | Joining non-empty parts that have no outer whitespace and no pair of spaces, with one space, gives text with the same properties. |
| `Catalog.Lookup` | src/utils/random_prompt_generator.py:40 | A key lookup succeeds iff the key is one of the mapping's keys, and then yields that entry's text. |
| `Catalog.Keys` | src/utils/random_prompt_generator.py:39 | `list(d.keys())` has one key per entry, position by position in the object's order. |
| `Catalog.Texts` | src/utils/random_prompt_generator.py:40 | The values `d[key]` can yield are the entries' texts, position by position. |
| `RandomPromptGenerator.Classify` | src/utils/random_prompt_generator.py:45-73 | A listed type resolves to a partition whose list contains it. Any other type resolves to the city partition. |
| `RandomPromptGenerator.ClassifyListed` | src/utils/random_prompt_generator.py:45-73 | A type resolves to partition `p` iff it is in `p`'s list, or it is unlisted and `p` is city. |
| `RandomPromptGenerator.LabelListsDisjoint` | src/utils/random_prompt_generator.py:11-16 | No type label belongs to two of the six lists. |
| `RandomPromptGenerator.Choose` | src/utils/random_prompt_generator.py:23 | `random.choice` succeeds iff the list is non-empty and returns one of its elements. An empty list is an error. |
| `RandomPromptGenerator.ChooseReachesEvery` | src/utils/random_prompt_generator.py:23 | Every element of the list can be drawn. |
| `RandomPromptGenerator.ChooseText` | src/utils/random_prompt_generator.py:39-40 | Choosing a key and then looking it up succeeds iff the mapping is non-empty, and yields one of its values. |
| `RandomPromptGenerator.ChooseTextReachesEvery` | src/utils/random_prompt_generator.py:39-40 | Every value of the mapping can be drawn: keys are unique, so the looked-up entry is the drawn one. |
| `RandomPromptGenerator.GetRandomEnvironment` | src/utils/random_prompt_generator.py:42-73 | The environment is a value of the partition the type resolves to, read under that partition's `ENVIRONMENTS` key (`RandomPromptGenerator.PartitionKey`: `"offroad"`, `"city"`, `"sport"`, `"touring"`, `"transport"`, `"transport_trimoto"`). A missing partition is a key error, and an empty one fails the draw. |
| `RandomPromptGenerator.UnlistedLabelDrawsCityEnvironment` | src/utils/random_prompt_generator.py:69-73 | An unlisted type draws exactly what the city label `"Naked"` draws. |
| `RandomPromptGenerator.GetRandomAction` | src/utils/random_prompt_generator.py:37-40 | Succeeds iff `ACTIONS` is non-empty, with one of its values. |
| `RandomPromptGenerator.GetRandomLighting` | src/utils/random_prompt_generator.py:75-78 | Succeeds iff `LIGHTING` is non-empty, with one of its values. |
| `RandomPromptGenerator.GetRandomStyleExtra` | src/utils/random_prompt_generator.py:80-83 | Succeeds iff `STYLE_EXTRAS` is non-empty, with one of its values. |
| `RandomPromptGenerator.GetRandomComposition` | src/utils/random_prompt_generator.py:85-88 | Succeeds iff `COMPOSITION` is non-empty, with one of its values. |
| `RandomPromptGenerator.GetRandomCameraDistance` | src/utils/random_prompt_generator.py:90-93 | Succeeds iff `CAMERA_DISTANCE` is non-empty, with one of its values. |
| `RandomPromptGenerator.GetRandomWeather` | src/utils/random_prompt_generator.py:21-23 | Succeeds iff the weather list is non-empty, with one of its elements. |
| `RandomPromptGenerator.GetRandomTime` | src/utils/random_prompt_generator.py:25-27 | Succeeds iff the time list is non-empty, with one of its elements. |
| `RandomPromptGenerator.GetRandomAtmosphere` | src/utils/random_prompt_generator.py:29-31 | Succeeds iff the atmosphere list is non-empty, with one of its elements. |
| `RandomPromptGenerator.GetRandomBackgroundVariety` | src/utils/random_prompt_generator.py:33-35 | Succeeds iff the background list is non-empty, with one of its elements. |
| `RandomPromptGenerator.VarietyPool` | src/utils/random_prompt_generator.py:105-111 | The pool is weather, then time, then atmosphere, then background variety, each in full and in that order. |
| `RandomPromptGenerator.Sample` | src/utils/random_prompt_generator.py:114 | `random.sample(pool, k)` returns `k` values and uses no pool position twice: its multiset is contained in the pool's. |
| `RandomPromptGenerator.SampleFromPool` | src/utils/random_prompt_generator.py:114 | Every sampled value is a pool value. |
| `RandomPromptGenerator.SampleAllIsPermutation` | src/utils/random_prompt_generator.py:114 | Sampling the whole pool yields a permutation of it. |
| `RandomPromptGenerator.GenerateVarietyElements` | src/utils/random_prompt_generator.py:95-115 | A negative count is an error. Otherwise the result has `min(n, pool size)` values, drawn without reusing a position, each from the pool. |
| `RandomPromptGenerator.AddVarietyToPrompt` | src/utils/random_prompt_generator.py:117-132 | The result is the base, then `", "`, then the sampled values joined with `", "`. With zero elements the trailing `", "` is still appended. A negative count is an error. |
| `RandomPromptGenerator.AddOneVariety` | src/utils/random_prompt_generator.py:117-132 | Asking for one element of a non-empty pool gives the base, `", "` and exactly one pool value. |
| `RandomPromptGenerator.AddWholePool` | src/utils/random_prompt_generator.py:114-132 | Asking for at least the pool's size appends every pool value exactly once, in some order, joined with `", "`. |
| `RandomPromptGenerator.AsDict` | src/utils/random_prompt_generator.py:141-150 | The dictionary has exactly the eight keys, each holding its value. |
| `RandomPromptGenerator.GetRandomCombination` | src/utils/random_prompt_generator.py:134-150 | Succeeds iff every source it draws from is present and non-empty. An environment error is the one raised. The keys are exactly the eight. Each value is a member of its source. |
| `Utils.ExtractImageUrl` | src/utils/utils.py:32-59 | A missing or falsy output is an error. Then, in priority order: a string is returned; a list gives its first element if that is a string, else that element's `url`; a mapping gives `get("url")`; an object gives its `url`. Every other shape is an error, and each error case holds iff its condition does. Falsiness is Python's `bool()`, modelled by `Utils.Truthy`. |
| `Utils.ExtractDelivered` | src/utils/utils.py:40-57 | A non-empty URL delivered as a string, list, list of objects, mapping or object is extracted unchanged. |
| `Utils.DictWithoutUrlYieldsNull` | src/utils/utils.py:52-53 | A non-empty mapping without `url` yields `None`, not an error. |
| `Utils.ListOfDictsIsError` | src/utils/utils.py:44-59 | A list whose first element is a mapping falls through to the final error. |
| `Utils.EffectiveMime` | src/utils/utils.py:16-18 | A non-empty MIME guess is used as is. `None` and the empty string fall back to `image/png`. |
| `Utils.DataUrlRoundTrip` | src/utils/utils.py:25 | `DataUrl` is the f-string `"data:{mime_type};base64,{imagen_data}"`. Parsing the data URL it builds recovers the MIME type and the payload, when the MIME type holds no `;`. |
| `Utils.DataUrlDefaultsToPng` | src/utils/utils.py:16-25 | Without a guess, or with an empty one, the data URL carries `image/png`. |
| `Utils.ParsedIsDataUrl` | src/utils/utils.py:25 | Every string that parses is `"data:" + mime + ";base64," + payload` for the parsed parts, and the MIME part holds no `;`. When the MIME part is non-empty this is what `DataUrl` builds; `"data:;base64,X"` parses but is never built, because the MIME type is never empty. |

## Left out

- `generate_random_prompt` (`src/utils/random_prompt_generator.py:153-191`)
  is not modelled. It passes `rider_block=` (line 182), a keyword
  `build_motorcycle_prompt` does not accept
  (`src/processors/prompt_generator.py:4-14`). As written, it raises
  `TypeError` before composing anything.
- The random number generator and its distribution are not modelled.
  - `random.choice(xs)` is modelled as `xs[d % |xs|]` for a caller-supplied
    draw `d`.
  - `random.sample` is modelled as repeated draw-and-remove over a
    caller-supplied draw sequence.
  - The properties are membership, length and position reuse, not
    uniformity.
- The default counts `num_elements=2` and `num_variety_elements=2`
  (`src/utils/random_prompt_generator.py:95`, `:117`) are not modelled as
  defaults. Dafny has no default arguments, so every caller passes the
  count.
- `RandomPromptGenerator.Sample`: the order in which CPython's
  `random.sample` consumes its random numbers is not modelled. Only the
  shape of its result is: `k` values, no position reused.
- Config loading (`open` and `json.load`, lines 18-19) is out of scope. The
  catalog is a given immutable value.
  - A missing top-level kind, such as no `LIGHTING`, cannot be expressed:
    the kinds are fields of `Catalog`.
  - A missing environment partition is modelled, as `MissingPartition`.
  - Duplicate JSON keys are excluded by the `Mapping` type, as `json.load`
    keeps only the last.
- `RandomPromptGenerator.GetRandomCombination`: the insertion order of the
  Python dictionary is not modelled, because a Dafny `map` has no order.
- `print` calls (line 44) have no effect on results and are left out.
- `Utils.ExtractImageUrl`: an object exposing `url` is taken to be truthy.
  Python objects with a custom `__bool__` or `__len__` are not modelled.
  Numbers, booleans and objects without `url` are `Other`, with their
  truthiness given.
- `imagen_a_data_url`: the file read, `base64.b64encode`,
  `mimetypes.guess_type` and the `RuntimeError` wrapper are I/O. The MIME
  guess and the payload are inputs.
- `src/processors/generador_imagenes_basico.py`,
  `src/utils/replicate_utils.py`, `src/utils/resize_image.py` and
  `src/utils/temp_prompt.py` are not part of this model. They are network
  calls, polling, bitmap resizing and JSON file storage.

=== FILE: catalog.dfy ===
/** The prompt catalog (`img_prompts.json`) as an immutable value. Only
    the parts the selection code reads are modelled. */
module Catalog {
  import opened Wrappers

  /** One `key: text` member of a JSON object. */
  datatype Entry = Entry(key: string, text: string)

  predicate DistinctKeys(m: seq<Entry>) {
    forall i, j :: 0 <= i < j < |m| ==> m[i].key != m[j].key
  }

  /** A JSON object of key to text, in key order; its keys are unique. */
  type Mapping = m: seq<Entry> | DistinctKeys(m) witness []

  /** `list(d.keys())` */
  function Keys(m: Mapping): (r: seq<string>)
    ensures |r| == |m|
    ensures forall i :: 0 <= i < |m| ==> r[i] == m[i].key
  {
    if |m| == 0 then [] else [m[0].key] + Keys(m[1..])
  }

  /** The values of the object, in key order. */
  function Texts(m: Mapping): (r: seq<string>)
    ensures |r| == |m|
    ensures forall i :: 0 <= i < |m| ==> r[i] == m[i].text
  {
    if |m| == 0 then [] else [m[0].text] + Texts(m[1..])
  }

  /** `d[key]`: the text stored under `key`, if any. The source subscripts,
      which would raise `KeyError` on a missing key; the key is always
      drawn from `list(d.keys())`, so the missing case never arises
      there. */
  function Lookup(m: Mapping, key: string): (r: Option<string>)
    ensures r.Some? <==> key in Keys(m)
    ensures forall i :: 0 <= i < |m| && m[i].key == key ==> r == Some(m[i].text)
  {
    if |m| == 0 then None
    else if m[0].key == key then Some(m[0].text)
    else
      var r := Lookup(m[1..], key);
      assert forall i :: 1 <= i < |m| ==> m[1..][i - 1] == m[i];
      r
  }

  /** `VARIETY_ELEMENTS`: four plain lists. */
  datatype VarietyElements = VarietyElements(
    weather: seq<string>,
    time: seq<string>,
    atmosphere: seq<string>,
    backgroundVariety: seq<string>)

  /** The top-level kinds the selection code reads. `ENVIRONMENTS` maps a
      partition name to its object; the others are flat objects. */
  datatype Catalog = Catalog(
    variety: VarietyElements,
    environments: map<string, Mapping>,
    actions: Mapping,
    lighting: Mapping,
    styleExtras: Mapping,
    composition: Mapping,
    cameraDistance: Mapping)
}

=== FILE: prompt_generator.dfy ===
/** `PromptGenerator.build_motorcycle_prompt`: a fixed ten-slot sentence,
    empty slots dropped, joined with single spaces, then one pass of
    `replace("  ", " ")` and a final `strip()`. */
module PromptGenerator {
  import opened Text

  // The two long literals are written in two pieces each, which keeps
  // the solver's work on them small; concatenated, they are the literals
  // of `prompt_generator.py` lines 28 and 39.
  const HeaderLead: string := "Professional realistic" + " photograph of a "
  const HeaderTail: string := " motorcycle"
  const DesignClause: string := "keeping its original shape and design."
  const CompositionDefault: string := "positioned using rule of thirds," + " off-center composition for natural look"
  const CameraDistanceDefault: string := "medium distance shot"

  /** The keyword arguments of `build_motorcycle_prompt`; the optional
      ones default to the empty string in the source. */
  datatype PromptFields = PromptFields(
    model: string,
    city: string,
    environment: string,
    action: string,
    rider: string,
    lightingStyle: string,
    extras: string,
    composition: string,
    cameraDistance: string)

  /** Slot 1: the model is interpolated as given, never stripped. */
  function HeaderSlot(model: string): (r: string)
    ensures r != [] && NoOuterWhitespace(r)
  {
    var r := HeaderLead + model + HeaderTail;
    assert r[0] == HeaderLead[0] == 'P';
    assert r[|r| - 1] == HeaderTail[|HeaderTail| - 1] == 'e';
    r
  }

  /** `f"in {city.strip()}" if city.strip() else ""`: present exactly when
      the city holds something other than whitespace. */
  function CitySlot(city: string): (r: string)
    ensures NoOuterWhitespace(r)
    ensures r != [] <==> !AllWhitespace(city)
    ensures r != [] ==> r == "in " + Strip(city)
  {
    var c := Strip(city);
    if c != [] then
      var r := "in " + c;
      assert r[0] == 'i' && r[|r| - 1] == c[|c| - 1];
      r
    else []
  }

  /** `x.strip() if x else ""`: the guard is redundant, the slot is the
      stripped text. */
  function OptionalSlot(x: string): (r: string)
    ensures r == Strip(x)
  {
    if x != [] then Strip(x) else []
  }

  /** `x.strip() if x else default`: only the empty string falls back to
      the default; whitespace-only text is stripped to nothing. */
  function DefaultedSlot(x: string, default: string): (r: string)
    requires default != [] && NoOuterWhitespace(default)
    ensures NoOuterWhitespace(r)
    ensures x == [] ==> r == default
    ensures x != [] ==> r == Strip(x)
    ensures r == [] <==> x != [] && AllWhitespace(x)
  {
    if x != [] then Strip(x) else default
  }

  lemma DefaultsTrimmed()
    ensures CompositionDefault != [] && NoOuterWhitespace(CompositionDefault)
    ensures CameraDistanceDefault != [] && NoOuterWhitespace(CameraDistanceDefault)
    ensures DesignClause != [] && NoOuterWhitespace(DesignClause)
  {
    assert CameraDistanceDefault[0] == 'm' && CameraDistanceDefault[|CameraDistanceDefault| - 1] == 't';
    assert DesignClause[0] == 'k' && DesignClause[|DesignClause| - 1] == '.';
  }

  /** Slot `i` of the source's list, in its order: header, design
      clause, environment, city, action, rider, composition, camera
      distance, lighting, extras. Every slot comes out without outer
      whitespace. */
  function SlotAt(f: PromptFields, i: nat): (r: string)
    requires i < SlotCount
    ensures NoOuterWhitespace(r)
  {
    DefaultsTrimmed();
    if i == 0 then HeaderSlot(f.model)
    else if i == 1 then DesignClause
    else if i == 2 then Strip(f.environment)
    else if i == 3 then CitySlot(f.city)
    else if i == 4 then Strip(f.action)
    else if i == 5 then OptionalSlot(f.rider)
    else if i == 6 then DefaultedSlot(f.composition, CompositionDefault)
    else if i == 7 then DefaultedSlot(f.cameraDistance, CameraDistanceDefault)
    else if i == 8 then OptionalSlot(f.lightingStyle)
    else OptionalSlot(f.extras)
  }

  const SlotCount: nat := 10

  /** The `parts` list of the source. */
  function Slots(f: PromptFields): (r: seq<string>)
    ensures |r| == SlotCount
  {
    seq(SlotCount, i requires 0 <= i < SlotCount => SlotAt(f, i))
  }

  /** Every slot is stripped; header and design clause are always present,
      the city slot exactly when the city is not blank, and composition and
      camera distance fall back to their defaults only when empty and are
      stripped otherwise. */
  lemma SlotsShape(f: PromptFields)
    ensures forall i :: 0 <= i < SlotCount ==> NoOuterWhitespace(Slots(f)[i])
    ensures Slots(f)[0] != [] && Slots(f)[1] != []
    ensures Slots(f)[3] != [] <==> !AllWhitespace(f.city)
    ensures Slots(f)[3] != [] ==> Slots(f)[3] == "in " + Strip(f.city)
    ensures Slots(f)[6] == [] <==> f.composition != [] && AllWhitespace(f.composition)
    ensures f.composition == [] ==> Slots(f)[6] == CompositionDefault
    ensures f.composition != [] ==> Slots(f)[6] == Strip(f.composition)
    ensures Slots(f)[7] == [] <==> f.cameraDistance != [] && AllWhitespace(f.cameraDistance)
    ensures f.cameraDistance == [] ==> Slots(f)[7] == CameraDistanceDefault
    ensures f.cameraDistance != [] ==> Slots(f)[7] == Strip(f.cameraDistance)
  {
    DefaultsTrimmed();
    var r := Slots(f);
    assert r[0] == SlotAt(f, 0) && r[1] == SlotAt(f, 1);
    assert r[3] == SlotAt(f, 3) && r[6] == SlotAt(f, 6) && r[7] == SlotAt(f, 7);
  }

  /** The slots are the source's list, in its order: action comes before
      rider, composition and camera distance before lighting and extras. */
  lemma SlotOrder(f: PromptFields)
    ensures Slots(f) == [
      HeaderLead + f.model + HeaderTail, DesignClause,
      Strip(f.environment), CitySlot(f.city), Strip(f.action),
      OptionalSlot(f.rider),
      DefaultedSlot(f.composition, CompositionDefault),
      DefaultedSlot(f.cameraDistance, CameraDistanceDefault),
      OptionalSlot(f.lightingStyle), OptionalSlot(f.extras)]
  {
    SlotsListed(f);
    LeadingSlotValues(f);
    TrailingSlotValues(f);
    CompositionSlotValue(f);
    CameraSlotValue(f);
  }

  lemma SlotsListed(f: PromptFields)
    ensures Slots(f) == [
      SlotAt(f, 0), SlotAt(f, 1), SlotAt(f, 2), SlotAt(f, 3), SlotAt(f, 4),
      SlotAt(f, 5), SlotAt(f, 6), SlotAt(f, 7), SlotAt(f, 8), SlotAt(f, 9)]
  {
    var r := Slots(f);
    assert r[0] == SlotAt(f, 0) && r[1] == SlotAt(f, 1) && r[2] == SlotAt(f, 2);
    assert r[3] == SlotAt(f, 3) && r[4] == SlotAt(f, 4) && r[5] == SlotAt(f, 5);
    assert r[6] == SlotAt(f, 6) && r[7] == SlotAt(f, 7);
    assert r[8] == SlotAt(f, 8) && r[9] == SlotAt(f, 9);
  }

  lemma LeadingSlotValues(f: PromptFields)
    ensures SlotAt(f, 0) == HeaderLead + f.model + HeaderTail
    ensures SlotAt(f, 1) == DesignClause && SlotAt(f, 2) == Strip(f.environment)
    ensures SlotAt(f, 3) == CitySlot(f.city) && SlotAt(f, 4) == Strip(f.action)
  {
  }

  lemma TrailingSlotValues(f: PromptFields)
    ensures SlotAt(f, 5) == OptionalSlot(f.rider)
    ensures SlotAt(f, 8) == OptionalSlot(f.lightingStyle) && SlotAt(f, 9) == OptionalSlot(f.extras)
  {
  }

  lemma CompositionSlotValue(f: PromptFields)
    ensures SlotAt(f, 6) == DefaultedSlot(f.composition, CompositionDefault)
  {
  }

  lemma CameraSlotValue(f: PromptFields)
    ensures SlotAt(f, 7) == DefaultedSlot(f.cameraDistance, CameraDistanceDefault)
  {
  }

  /** `" ".join(p for p in parts if p).replace("  ", " ").strip()` */
  function BuildMotorcyclePrompt(f: PromptFields): (r: string)
    ensures NoOuterWhitespace(r)
    ensures r != []
  {
    var joined := Join(" ", NonEmpty(Slots(f)));
    NonEmptyKeepsFirst(Slots(f));
    JoinEdges(" ", NonEmpty(Slots(f)));
    ReplaceFirstChar(joined);
    Strip(ReplaceDoubleSpace(joined))
  }

  // ---------------------------------------------------------------------
  // Helper facts about the join of the slots

  lemma NonEmptyKeepsFirst(parts: seq<string>)
    requires |parts| > 0 && parts[0] != []
    ensures |NonEmpty(parts)| > 0 && NonEmpty(parts)[0] == parts[0]
  {
  }

  lemma ReplaceFirstChar(s: string)
    ensures |s| > 0 ==> |ReplaceDoubleSpace(s)| > 0 && ReplaceDoubleSpace(s)[0] == s[0]
  {
  }

  /** The replace never touches a final character that is not a space. */
  lemma {:induction false} ReplaceKeepsLastChar(s: string)
    requires |s| > 0 && s[|s| - 1] != ' '
    ensures var r := ReplaceDoubleSpace(s); |r| > 0 && r[|r| - 1] == s[|s| - 1]
    decreases |s|
  {
    if |s| >= 2 && s[0] == ' ' && s[1] == ' ' {
      ReplaceKeepsLastChar(s[2..]);
    } else if |s| > 1 {
      ReplaceKeepsLastChar(s[1..]);
    }
  }

  /** Every kept slot is non-empty and has no outer whitespace. */
  lemma NonEmptySlotsTrimmed(f: PromptFields)
    ensures |NonEmpty(Slots(f))| > 0
    ensures forall i :: 0 <= i < |NonEmpty(Slots(f))| ==>
      NonEmpty(Slots(f))[i] != [] && NoOuterWhitespace(NonEmpty(Slots(f))[i])
  {
    SlotsShape(f);
    NonEmptyKeepsFirst(Slots(f));
  }

  // ---------------------------------------------------------------------
  // Properties of the assembled prompt

  /** A join of non-empty stripped parts has no outer whitespace. */
  lemma JoinOfStrippedParts(parts: seq<string>)
    requires |parts| > 0
    requires forall i :: 0 <= i < |parts| ==> parts[i] != [] && NoOuterWhitespace(parts[i])
    ensures Join(" ", parts) != [] && NoOuterWhitespace(Join(" ", parts))
  {
    JoinEdges(" ", parts);
    var j := Join(" ", parts);
    var first, last := parts[0], parts[|parts| - 1];
    assert NoOuterWhitespace(first) && NoOuterWhitespace(last);
    assert j[0] == first[0] && j[|j| - 1] == last[|last| - 1];
  }

  /** The replace keeps a non-empty text free of outer whitespace. */
  lemma ReplaceKeepsStripped(s: string)
    requires s != [] && NoOuterWhitespace(s)
    ensures NoOuterWhitespace(ReplaceDoubleSpace(s))
  {
    assert s[|s| - 1] != ' ';
    ReplaceKeepsLastChar(s);
    ReplaceFirstChar(s);
  }

  /** A join of non-empty stripped parts, once replaced, has nothing for
      `strip()` to remove. */
  lemma ReplacedJoinIsStripped(parts: seq<string>)
    requires |parts| > 0
    requires forall i :: 0 <= i < |parts| ==> parts[i] != [] && NoOuterWhitespace(parts[i])
    ensures Strip(ReplaceDoubleSpace(Join(" ", parts))) == ReplaceDoubleSpace(Join(" ", parts))
  {
    JoinOfStrippedParts(parts);
    ReplaceKeepsStripped(Join(" ", parts));
    StripFixesClean(ReplaceDoubleSpace(Join(" ", parts)));
  }

  /** The final `strip()` never removes anything: the header starts with a
      letter and every other slot is already stripped, so the prompt is
      exactly the replaced join. */
  lemma FinalStripIsNoOp(f: PromptFields)
    ensures BuildMotorcyclePrompt(f) == ReplaceDoubleSpace(Join(" ", NonEmpty(Slots(f))))
  {
    NonEmptySlotsTrimmed(f);
    ReplacedJoinIsStripped(NonEmpty(Slots(f)));
  }

  lemma JoinStartsWithFirst(sep: string, parts: seq<string>) returns (rest: string)
    requires |parts| > 0
    ensures Join(sep, parts) == parts[0] + rest
  {
    if |parts| == 1 {
      rest := [];
    } else {
      rest := sep + Join(sep, parts[1..]);
    }
  }

  lemma HeaderSlotSplit(model: string, rest: string)
    ensures HeaderSlot(model) + rest == HeaderLead + (model + (HeaderTail + rest))
  {
  }

  /** The joined slots begin with the header slot. */
  lemma JoinStartsWithHeader(f: PromptFields) returns (rest: string)
    ensures Join(" ", NonEmpty(Slots(f))) == HeaderLead + (f.model + (HeaderTail + rest))
  {
    SlotsShape(f);
    NonEmptyKeepsFirst(Slots(f));
    var parts := NonEmpty(Slots(f));
    assert parts[0] == SlotAt(f, 0);
    rest := JoinStartsWithFirst(" ", parts);
    HeaderSlotSplit(f.model, rest);
  }

  /** An omitted slot leaves no trace: the prompt is the one built from
      the list without that slot, so no separator is left behind. */
  lemma OmittedSlotLeavesNoSeparator(f: PromptFields, i: nat)
    requires i < SlotCount && SlotAt(f, i) == []
    ensures BuildMotorcyclePrompt(f) ==
      Strip(ReplaceDoubleSpace(Join(" ", NonEmpty(Slots(f)[..i] + Slots(f)[i + 1..]))))
  {
    var r := Slots(f);
    assert r[i] == SlotAt(f, i);
    assert r == r[..i] + [[]] + r[i + 1..];
    JoinSkipsEmpty(" ", r[..i], r[i + 1..]);
  }

  /** Whenever the model does not begin with a space, the prompt starts
      with the header lead followed by the model as the replace leaves it;
      in particular the model is never stripped. */
  lemma HeaderPrefix(f: PromptFields)
    requires f.model == [] || f.model[0] != ' '
    ensures StartsWith(BuildMotorcyclePrompt(f), HeaderLead + ReplaceDoubleSpace(f.model))
  {
    FinalStripIsNoOp(f);
    var rest := JoinStartsWithHeader(f);
    ReplacedHeader(f.model, HeaderTail + rest);
  }

  /** The replace leaves the header lead alone and treats the model as the
      start of what follows it. */
  lemma ReplacedHeader(model: string, tail: string)
    requires model == [] || model[0] != ' '
    ensures StartsWith(ReplaceDoubleSpace(HeaderLead + (model + tail)), HeaderLead + ReplaceDoubleSpace(model))
  {
    LiteralsSingleSpaced();
    if model == [] {
      ReplacePrefix(HeaderLead, tail);
      ReplaceIsIdentityIff(HeaderLead);
      assert HeaderLead + (model + tail) == HeaderLead + tail;
      assert HeaderLead + ReplaceDoubleSpace(model) == HeaderLead;
    } else {
      ReplaceCleanPrefix(HeaderLead, model + tail);
      ReplacePrefix(model, tail);
    }
  }

  /** With a model free of space pairs and not starting with a space, the
      prompt starts with the header lead and the model verbatim. */
  lemma HeaderPrefixVerbatim(f: PromptFields)
    requires f.model == [] || f.model[0] != ' '
    requires !HasDoubleSpace(f.model)
    ensures StartsWith(BuildMotorcyclePrompt(f), HeaderLead + f.model)
  {
    HeaderPrefix(f);
    ReplaceIsIdentityIff(f.model);
  }

  /** What follows the header slot in the join: a space and the join of
      the remaining non-empty slots. */
  function AfterHeader(f: PromptFields): string {
    " " + Join(" ", NonEmpty(Slots(f)[1..]))
  }

  /** The join of the kept parts is the first part, a space, and the join
      of the kept rest, when both are present. */
  lemma JoinSplitsFirst(parts: seq<string>)
    requires |parts| > 1 && parts[0] != [] && parts[1] != []
    ensures Join(" ", NonEmpty(parts)) == parts[0] + (" " + Join(" ", NonEmpty(parts[1..])))
  {
    var rest := NonEmpty(parts[1..]);
    NonEmptyKeepsFirst(parts[1..]);
    assert NonEmpty(parts) == [parts[0]] + rest;
    assert ([parts[0]] + rest)[1..] == rest;
  }

  lemma JoinSplitsHeader(f: PromptFields)
    ensures Join(" ", NonEmpty(Slots(f))) == HeaderSlot(f.model) + AfterHeader(f)
  {
    var slots := Slots(f);
    SlotsShape(f);
    assert slots[0] == SlotAt(f, 0);
    JoinSplitsFirst(slots);
  }

  /** The slots after the header do not depend on the model. */
  lemma AfterHeaderIgnoresModel(f: PromptFields, m: string)
    ensures AfterHeader(f.(model := m)) == AfterHeader(f)
  {
    var g := f.(model := m);
    forall i | 1 <= i < SlotCount
      ensures Slots(g)[i] == Slots(f)[i]
    {
      assert Slots(g)[i] == SlotAt(g, i) && Slots(f)[i] == SlotAt(f, i);
    }
    assert Slots(g)[1..] == Slots(f)[1..];
  }

  lemma HeaderLeadEndsInSpace() returns (words: string)
    ensures HeaderLead == words + " "
    ensures words != [] && words[|words| - 1] != ' '
  {
    words := "Professional realistic photograph of a";
    assert words[|words| - 1] == 'a';
  }

  /** A pair of spaces between a word and text that does not start with
      a space comes out as one space, just like a single space there. */
  lemma PairAfterWordAbsorbed(w: string, x: string)
    requires w != [] && w[|w| - 1] != ' '
    requires x == [] || x[0] != ' '
    ensures ReplaceDoubleSpace(w + ("  " + x)) == ReplaceDoubleSpace(w + (" " + x))
  {
    ReplaceSplit(w, "  " + x);
    ReplaceSplit(w, " " + x);
    assert ("  " + x)[2..] == x;
    ReplaceStep(' ', x);
  }

  lemma HeaderRegroupLeading(words: string, m: string, w: string)
    requires HeaderLead == words + " "
    ensures HeaderSlot(" " + m) + w == words + ("  " + (m + (HeaderTail + w)))
    ensures HeaderSlot(m) + w == words + (" " + (m + (HeaderTail + w)))
  {
  }

  lemma HeaderRegroupTrailing(m: string, w: string)
    ensures HeaderSlot(m + " ") + w == (HeaderLead + m) + ("  " + ("motorcycle" + w))
    ensures HeaderSlot(m) + w == (HeaderLead + m) + (" " + ("motorcycle" + w))
  {
    assert HeaderTail == " " + "motorcycle";
  }

  /** A single leading space of the model pairs with the space that ends
      the header lead, and the replace removes it: the prompt is the one
      for the model without that space. */
  lemma LeadingSpaceAbsorbed(f: PromptFields, m: string)
    requires f.model == " " + m
    requires m != [] && m[0] != ' '
    ensures BuildMotorcyclePrompt(f) == BuildMotorcyclePrompt(f.(model := m))
  {
    var g := f.(model := m);
    FinalStripIsNoOp(f);
    FinalStripIsNoOp(g);
    JoinSplitsHeader(f);
    JoinSplitsHeader(g);
    AfterHeaderIgnoresModel(f, m);
    var w := AfterHeader(f);
    var words := HeaderLeadEndsInSpace();
    HeaderRegroupLeading(words, m, w);
    PairAfterWordAbsorbed(words, m + (HeaderTail + w));
  }

  /** Symmetrically, a single trailing space pairs with the space before
      `motorcycle` and is removed. */
  lemma TrailingSpaceAbsorbed(f: PromptFields, m: string)
    requires f.model == m + " "
    requires m != [] && m[|m| - 1] != ' '
    ensures BuildMotorcyclePrompt(f) == BuildMotorcyclePrompt(f.(model := m))
  {
    var g := f.(model := m);
    FinalStripIsNoOp(f);
    FinalStripIsNoOp(g);
    JoinSplitsHeader(f);
    JoinSplitsHeader(g);
    AfterHeaderIgnoresModel(f, m);
    var w := AfterHeader(f);
    HeaderRegroupTrailing(m, w);
    PairAfterWordAbsorbed(HeaderLead + m, "motorcycle" + w);
  }

  lemma HeaderRegroupBare(words: string, m: string, w: string)
    requires HeaderLead == words + " "
    ensures HeaderSlot(m) + w == words + (" " + m + " " + ("motorcycle" + w))
  {
    assert HeaderTail == " " + "motorcycle";
  }

  /** A model that is one space puts three spaces between the header lead's
      last word and `motorcycle`, and the single pass leaves two. */
  lemma SpaceModelLeavesPair(f: PromptFields)
    requires f.model == " "
    ensures HasDoubleSpace(BuildMotorcyclePrompt(f))
  {
    FinalStripIsNoOp(f);
    JoinSplitsHeader(f);
    var words := HeaderLeadEndsInSpace();
    var x := "motorcycle" + AfterHeader(f);
    HeaderRegroupBare(words, f.model, AfterHeader(f));
    assert " " + f.model + " " + x == "   " + x;
    TripleSpaceInside(words, "   ", x, 0);
  }

  /** A pair of spaces after pair-free text ending in a non-space comes
      out as one space. */
  lemma PairAfterCleanText(words: string, x: string)
    requires words != [] && words[|words| - 1] != ' ' && !HasDoubleSpace(words)
    ensures ReplaceDoubleSpace(words + ("  " + x)) == words + (" " + ReplaceDoubleSpace(x))
  {
    ReplaceSplit(words, "  " + x);
    ReplaceIsIdentityIff(words);
    assert ("  " + x)[2..] == x;
  }

  /** Pair-free text ending in a non-space passes through the replace. */
  lemma CleanTextPassesThrough(word: string, w: string)
    requires word != [] && word[|word| - 1] != ' ' && !HasDoubleSpace(word)
    ensures ReplaceDoubleSpace(word + w) == word + ReplaceDoubleSpace(w)
  {
    ReplaceSplit(word, w);
    ReplaceIsIdentityIff(word);
  }

  /** A pair of spaces between two pair-free words: the replace leaves one
      space, then the second word unchanged. */
  lemma PairBetweenWords(words: string, word: string, w: string)
    requires words != [] && words[|words| - 1] != ' ' && !HasDoubleSpace(words)
    requires word != [] && word[|word| - 1] != ' ' && !HasDoubleSpace(word)
    ensures ReplaceDoubleSpace(words + ("  " + (word + w))) == words + (" " + (word + ReplaceDoubleSpace(w)))
  {
    PairAfterCleanText(words, word + w);
    CleanTextPassesThrough(word, w);
  }

  /** The empty model leaves one space between the header lead and
      `motorcycle`: the pair it would leave is replaced. */
  lemma EmptyModelHeader(f: PromptFields)
    requires f.model == []
    ensures StartsWith(BuildMotorcyclePrompt(f), HeaderLead + "motorcycle")
  {
    FinalStripIsNoOp(f);
    JoinSplitsHeader(f);
    var words := HeaderLeadEndsInSpace();
    var w := AfterHeader(f);
    HeaderRegroupBare(words, f.model, w);
    assert " " + f.model + " " + ("motorcycle" + w) == "  " + ("motorcycle" + w);
    LiteralsSingleSpaced();
    NoDoubleSpaceSlice(HeaderLead, 0, |words|);
    assert HeaderLead[0..|words|] == words;
    assert !HasDoubleSpace("motorcycle");
    PairBetweenWords(words, "motorcycle", w);
    PrefixRegroup(words, "motorcycle", ReplaceDoubleSpace(w));
  }

  lemma PrefixRegroup(words: string, word: string, rest: string)
    ensures StartsWith(words + (" " + (word + rest)), words + " " + word)
  {
    assert words + (" " + (word + rest)) == (words + " " + word) + rest;
    ConcatSplit(words + " " + word, rest);
  }

  lemma ConcatSplit(a: string, b: string)
    ensures StartsWith(a + b, a)
  {
    assert (a + b)[..|a|] == a;
  }

  lemma CompositionDefaultSingleSpaced()
    ensures !HasDoubleSpace(CompositionDefault)
  {
    var a, b := "positioned using rule of thirds,", " off-center composition for natural look";
    assert !HasDoubleSpace(a);
    assert !HasDoubleSpace(b);
    NoDoubleSpaceConcat(a, b);
    assert CompositionDefault == a + b;
  }

  lemma LiteralsSingleSpaced()
    ensures !HasDoubleSpace(HeaderLead) && !HasDoubleSpace(HeaderTail)
    ensures !HasDoubleSpace(DesignClause) && !HasDoubleSpace(CameraDistanceDefault)
    ensures !HasDoubleSpace(CompositionDefault)
    ensures !HasDoubleSpace("in ")
  {
    CompositionDefaultSingleSpaced();
  }

  /** A clean model (non-empty, not starting or ending with a space, no
      space pair) gives a clean header slot. */
  lemma CleanHeader(model: string)
    requires model != [] && model[0] != ' ' && model[|model| - 1] != ' '
    requires !HasDoubleSpace(model)
    ensures !HasDoubleSpace(HeaderSlot(model))
  {
    LiteralsSingleSpaced();
    NoDoubleSpaceConcat(model, HeaderTail);
    NoDoubleSpaceConcat(HeaderLead, model + HeaderTail);
    assert HeaderSlot(model) == HeaderLead + (model + HeaderTail);
  }

  lemma CleanStripped(x: string)
    requires !HasDoubleSpace(x)
    ensures !HasDoubleSpace(Strip(x))
  {
    var k := LeadingWhitespace(x);
    StripIsSlice(x);
    NoDoubleSpaceSlice(x, k, k + |Strip(x)|);
  }

  /** No input holds a pair of adjacent spaces, and the model is
      non-empty and neither starts nor ends with a space. */
  predicate CleanInputs(f: PromptFields) {
    && f.model != [] && f.model[0] != ' ' && f.model[|f.model| - 1] != ' '
    && !HasDoubleSpace(f.model) && !HasDoubleSpace(f.city)
    && !HasDoubleSpace(f.environment) && !HasDoubleSpace(f.action)
    && !HasDoubleSpace(f.rider) && !HasDoubleSpace(f.lightingStyle)
    && !HasDoubleSpace(f.extras) && !HasDoubleSpace(f.composition)
    && !HasDoubleSpace(f.cameraDistance)
  }

  lemma CleanSlotAt(f: PromptFields, i: nat)
    requires CleanInputs(f)
    requires i < SlotCount
    ensures !HasDoubleSpace(SlotAt(f, i))
  {
    LiteralsSingleSpaced();
    if i == 0 {
      CleanHeader(f.model);
    } else if i == 3 {
      if Strip(f.city) != [] {
        CleanStripped(f.city);
        NoDoubleSpaceConcat("in ", Strip(f.city));
      }
    } else if i == 2 {
      CleanStripped(f.environment);
    } else if i == 4 {
      CleanStripped(f.action);
    } else if i == 5 {
      CleanStripped(f.rider);
    } else if i == 6 {
      CleanStripped(f.composition);
    } else if i == 7 {
      CleanStripped(f.cameraDistance);
    } else if i == 8 {
      CleanStripped(f.lightingStyle);
    } else if i == 9 {
      CleanStripped(f.extras);
    }
  }

  /** With clean inputs neither the replace nor the strip changes
      anything: the prompt is exactly the single-space join of the
      non-empty slots, in slot order, so an omitted slot leaves no
      separator behind. */
  lemma CleanInputsJoinExactly(f: PromptFields)
    requires CleanInputs(f)
    ensures BuildMotorcyclePrompt(f) == Join(" ", NonEmpty(Slots(f)))
  {
    var slots := Slots(f);
    forall i | 0 <= i < |slots|
      ensures !HasDoubleSpace(slots[i])
    {
      CleanSlotAt(f, i);
    }
    var parts := NonEmpty(slots);
    NonEmptySlotsTrimmed(f);
    assert forall i :: 0 <= i < |parts| ==> CleanPart(parts[i]);
    JoinCleanParts(parts);
    ReplaceIsIdentityIff(Join(" ", parts));
    FinalStripIsNoOp(f);
  }

  /** Every optional field holds something other than whitespace, so
      that no slot is dropped. */
  predicate AllSlotsPresent(f: PromptFields) {
    && !AllWhitespace(f.city) && !AllWhitespace(f.environment)
    && !AllWhitespace(f.action) && !AllWhitespace(f.rider)
    && !AllWhitespace(f.composition) && !AllWhitespace(f.cameraDistance)
    && !AllWhitespace(f.lightingStyle) && !AllWhitespace(f.extras)
  }

  lemma TripleSpaceInside(a: string, m: string, b: string, j: nat)
    requires j + 3 <= |m|
    requires m[j] == ' ' && m[j + 1] == ' ' && m[j + 2] == ' '
    ensures HasDoubleSpace(ReplaceDoubleSpace(a + (m + b)))
  {
    var s := a + (m + b);
    assert s[|a| + j] == ' ' && s[|a| + j + 1] == ' ' && s[|a| + j + 2] == ' ';
    TripleSpaceLeavesPair(s, |a| + j);
  }

  /** The single-space join of ten non-empty slots, written out. */
  lemma JoinTen(s0: string, s1: string, s2: string, s3: string, s4: string,
                s5: string, s6: string, s7: string, s8: string, s9: string)
    requires s0 != [] && s1 != [] && s2 != [] && s3 != [] && s4 != []
    requires s5 != [] && s6 != [] && s7 != [] && s8 != [] && s9 != []
    ensures Join(" ", NonEmpty([s0, s1, s2, s3, s4, s5, s6, s7, s8, s9])) ==
      s0 + " " + s1 + " " + s2 + " " + s3 + " " + s4 + " " +
      s5 + " " + s6 + " " + s7 + " " + s8 + " " + s9
  {
    NonEmptyKeepsAll([s0, s1, s2, s3, s4, s5, s6, s7, s8, s9]);
    JoinSnoc(" ", [s0], s1);
    assert [s0] + [s1] == [s0, s1];
    JoinSnoc(" ", [s0, s1], s2);
    assert [s0, s1] + [s2] == [s0, s1, s2];
    JoinSnoc(" ", [s0, s1, s2], s3);
    assert [s0, s1, s2] + [s3] == [s0, s1, s2, s3];
    JoinSnoc(" ", [s0, s1, s2, s3], s4);
    assert [s0, s1, s2, s3] + [s4] == [s0, s1, s2, s3, s4];
    JoinSnoc(" ", [s0, s1, s2, s3, s4], s5);
    assert [s0, s1, s2, s3, s4] + [s5] == [s0, s1, s2, s3, s4, s5];
    JoinSnoc(" ", [s0, s1, s2, s3, s4, s5], s6);
    assert [s0, s1, s2, s3, s4, s5] + [s6] == [s0, s1, s2, s3, s4, s5, s6];
    JoinSnoc(" ", [s0, s1, s2, s3, s4, s5, s6], s7);
    assert [s0, s1, s2, s3, s4, s5, s6] + [s7] == [s0, s1, s2, s3, s4, s5, s6, s7];
    JoinSnoc(" ", [s0, s1, s2, s3, s4, s5, s6, s7], s8);
    assert [s0, s1, s2, s3, s4, s5, s6, s7] + [s8] == [s0, s1, s2, s3, s4, s5, s6, s7, s8];
    JoinSnoc(" ", [s0, s1, s2, s3, s4, s5, s6, s7, s8], s9);
    assert [s0, s1, s2, s3, s4, s5, s6, s7, s8] + [s9] == [s0, s1, s2, s3, s4, s5, s6, s7, s8, s9];
  }

  /** With every field filled in, no slot is empty and each optional one
      is its stripped text. */
  lemma PresentSlots(f: PromptFields)
    requires AllSlotsPresent(f)
    ensures Slots(f) == [
      HeaderLead + f.model + HeaderTail, DesignClause,
      Strip(f.environment), "in " + Strip(f.city), Strip(f.action),
      Strip(f.rider), Strip(f.composition), Strip(f.cameraDistance),
      Strip(f.lightingStyle), Strip(f.extras)]
  {
    SlotOrder(f);
    DefaultsTrimmed();
    assert f.composition != [] && f.cameraDistance != [];
  }

  lemma AppendTwo(t: string, a: string, b: string)
    ensures t + (a + b) == t + a + b
  {
  }

  /** With clean inputs and every field filled in, the prompt reads the
      slots in the source's order, one space apart: header, design clause,
      environment, city, action, rider, composition, camera distance,
      lighting, extras. In particular the action precedes the rider. */
  lemma PromptSlotOrder(f: PromptFields)
    requires CleanInputs(f) && AllSlotsPresent(f)
    ensures BuildMotorcyclePrompt(f) ==
      HeaderLead + f.model + HeaderTail + " " + DesignClause + " " +
      Strip(f.environment) + " " + "in " + Strip(f.city) + " " +
      Strip(f.action) + " " + Strip(f.rider) + " " +
      Strip(f.composition) + " " + Strip(f.cameraDistance) + " " +
      Strip(f.lightingStyle) + " " + Strip(f.extras)
  {
    CleanInputsJoinExactly(f);
    PresentSlots(f);
    var s0, s1, s2 := HeaderLead + f.model + HeaderTail, DesignClause, Strip(f.environment);
    var s3, s4, s5 := "in " + Strip(f.city), Strip(f.action), Strip(f.rider);
    var s6, s7 := Strip(f.composition), Strip(f.cameraDistance);
    var s8, s9 := Strip(f.lightingStyle), Strip(f.extras);
    assert s0[0] == 'P' && s1[0] == 'k' && s3[0] == 'i';
    JoinTen(s0, s1, s2, s3, s4, s5, s6, s7, s8, s9);
    AppendTwo(s0 + " " + s1 + " " + s2 + " ", "in ", Strip(f.city));
  }

  /** What a defaulted slot keeps of its text: nothing when empty, a
      blank marker when whitespace-only, else the stripped text. */
  function NormalDefaulted(x: string): string {
    if x == [] then [] else if AllWhitespace(x) then " " else Strip(x)
  }

  /** The fields with every optional text reduced to what the assembler
      keeps of it; the model is left alone. */
  function StrippedFields(f: PromptFields): PromptFields {
    PromptFields(
      f.model, Strip(f.city), Strip(f.environment), Strip(f.action),
      Strip(f.rider), Strip(f.lightingStyle), Strip(f.extras),
      NormalDefaulted(f.composition), NormalDefaulted(f.cameraDistance))
  }

  lemma StrippedOptional(x: string)
    ensures OptionalSlot(Strip(x)) == OptionalSlot(x)
  {
    StripIdempotent(x);
  }

  lemma StrippedCity(city: string)
    ensures CitySlot(Strip(city)) == CitySlot(city)
  {
    StripIdempotent(city);
  }

  lemma StrippedDefaulted(x: string, default: string)
    requires default != [] && NoOuterWhitespace(default)
    ensures DefaultedSlot(NormalDefaulted(x), default) == DefaultedSlot(x, default)
  {
    StripIdempotent(x);
    if x != [] && AllWhitespace(x) {
      assert Strip(" ") == [];
    }
  }

  lemma StrippedSlot(f: PromptFields, i: nat)
    requires i < SlotCount
    ensures SlotAt(f, i) == SlotAt(StrippedFields(f), i)
  {
    var g := StrippedFields(f);
    DefaultsTrimmed();
    if i == 2 {
      StripIdempotent(f.environment);
    } else if i == 3 {
      StrippedCity(f.city);
    } else if i == 4 {
      StripIdempotent(f.action);
    } else if i == 5 {
      StrippedOptional(f.rider);
    } else if i == 6 {
      StrippedDefaulted(f.composition, CompositionDefault);
    } else if i == 7 {
      StrippedDefaulted(f.cameraDistance, CameraDistanceDefault);
    } else if i == 8 {
      StrippedOptional(f.lightingStyle);
    } else if i == 9 {
      StrippedOptional(f.extras);
    }
  }

  /** Stripping the optional texts beforehand changes nothing: the
      assembler sees only what `strip()` keeps of them, and of composition
      and camera distance also whether they were empty. So whitespace-only
      text acts like an omitted slot, except that only a truly empty
      composition or camera distance receives the default. */
  lemma StrippedFieldsSamePrompt(f: PromptFields)
    ensures BuildMotorcyclePrompt(StrippedFields(f)) == BuildMotorcyclePrompt(f)
  {
    forall i | 0 <= i < SlotCount
      ensures SlotAt(f, i) == SlotAt(StrippedFields(f), i)
    {
      StrippedSlot(f, i);
    }
    assert Slots(f) == Slots(StrippedFields(f));
  }

  /** The replace runs once: a model holding three adjacent spaces, at
      any position, still leaves a pair of spaces in the prompt. */
  lemma SinglePassLeavesDoubleSpace(f: PromptFields, j: nat)
    requires j + 3 <= |f.model|
    requires f.model[j] == ' ' && f.model[j + 1] == ' ' && f.model[j + 2] == ' '
    ensures HasDoubleSpace(BuildMotorcyclePrompt(f))
  {
    FinalStripIsNoOp(f);
    var rest := JoinStartsWithHeader(f);
    TripleSpaceInside(HeaderLead, f.model, HeaderTail + rest, j);
  }
}

=== FILE: random_prompt_generator.dfy ===
/** `randomPromptGenerator`: routes a free-form motorcycle type label to an
    environment partition and draws catalog values. Each `random.choice`
    is modelled by a caller-supplied draw `d`, read as position
    `d % length`; each `random.sample` by a sequence of such draws. The
    properties are about membership and shape, not about distribution. */
module RandomPromptGenerator {
  import opened Wrappers
  import opened Catalog
  import opened Text

  /** What the Python code raises: `IndexError` from `random.choice` on an
      empty list, `KeyError` for a missing partition, `ValueError` from
      `random.sample` with a negative size. */
  datatype SelectError = EmptyChoice | MissingPartition(name: string) | NegativeSampleSize

  // ---------------------------------------------------------------------
  // Type label classification

  const OffroadLabels: seq<string> := ["Doble Propósito", "Enduro", "Cuatrimoto", "ATV"]
  const CityLabels: seq<string> := ["Naked", "Trabajo", "Motoneta", "Café Racer", "Semiautomática", "Chopper", "Eléctrica"]
  const SportLabels: seq<string> := ["Deportiva"]
  const TouringLabels: seq<string> := ["Touring"]
  const TransportLabels: seq<string> := ["Carga", "Carguero"]
  const TransportTrimotoLabels: seq<string> := ["Trimoto"]

  /** The `ENVIRONMENTS` partitions the code can select. */
  datatype Partition = Offroad | City | Sport | Touring | Transport | TransportTrimoto

  /** The partition's key in `ENVIRONMENTS`. */
  function PartitionKey(p: Partition): string {
    match p
    case Offroad => "offroad"
    case City => "city"
    case Sport => "sport"
    case Touring => "touring"
    case Transport => "transport"
    case TransportTrimoto => "transport_trimoto"
  }

  /** The type labels listed for a partition. */
  function LabelsOf(p: Partition): seq<string> {
    match p
    case Offroad => OffroadLabels
    case City => CityLabels
    case Sport => SportLabels
    case Touring => TouringLabels
    case Transport => TransportLabels
    case TransportTrimoto => TransportTrimotoLabels
  }

  predicate Listed(motorcycleType: string) {
    exists p: Partition :: motorcycleType in LabelsOf(p)
  }

  /** The `if/elif` chain of `get_random_environment`: exact,
      case-sensitive membership, checked list by list, city as fallback.
      Since the lists are disjoint the order does not matter: a listed
      type label lands in its own list's partition and an unlisted one in the
      city partition. */
  function Classify(motorcycleType: string): (p: Partition)
    ensures motorcycleType in LabelsOf(p) || (p == City && !Listed(motorcycleType))
    ensures Listed(motorcycleType) ==> motorcycleType in LabelsOf(p)
  {
    if motorcycleType in OffroadLabels then Offroad
    else if motorcycleType in CityLabels then City
    else if motorcycleType in SportLabels then Sport
    else if motorcycleType in TouringLabels then Touring
    else if motorcycleType in TransportLabels then Transport
    else if motorcycleType in TransportTrimotoLabels then TransportTrimoto
    else
      assert forall p: Partition :: motorcycleType !in LabelsOf(p);
      City
  }

  /** No type label is listed for two partitions. */
  lemma LabelListsDisjoint(p: Partition, q: Partition, motorcycleType: string)
    requires motorcycleType in LabelsOf(p) && motorcycleType in LabelsOf(q)
    ensures p == q
  {
  }

  /** Every listed type label resolves to its own partition, and to no other. */
  lemma ClassifyListed(motorcycleType: string, p: Partition)
    ensures Classify(motorcycleType) == p <==> motorcycleType in LabelsOf(p) || (p == City && !Listed(motorcycleType))
  {
    var q := Classify(motorcycleType);
    if motorcycleType in LabelsOf(p) {
      if motorcycleType in LabelsOf(q) {
        LabelListsDisjoint(p, q, motorcycleType);
      }
    }
  }

  // ---------------------------------------------------------------------
  // Draws

  /** `random.choice(xs)` with the draw `d`. */
  function Choose<T>(xs: seq<T>, d: nat): (r: Result<T, SelectError>)
    ensures r.Ok? <==> |xs| > 0
    ensures r.Ok? ==> r.value in xs
    ensures r.Err? ==> r.error == EmptyChoice
  {
    if |xs| == 0 then Err(EmptyChoice) else Ok(xs[d % |xs|])
  }

  /** Every element is reachable: the draw `j` picks position `j`. */
  lemma ChooseReachesEvery<T>(xs: seq<T>, j: nat)
    requires j < |xs|
    ensures Choose(xs, j) == Ok(xs[j])
  {
    ModBelow(j, |xs|);
  }

  lemma ModBelow(j: nat, n: nat)
    requires j < n
    ensures j % n == j
  {
  }

  /** `d[random.choice(list(d.keys()))]` */
  function ChooseText(m: Mapping, d: nat): (r: Result<string, SelectError>)
    ensures r.Ok? <==> |m| > 0
    ensures r.Ok? ==> r.value in Texts(m)
    ensures r.Err? ==> r.error == EmptyChoice
  {
    var key :- Choose(Keys(m), d);
    var i := d % |m|;
    assert m[i].key == key;
    assert Texts(m)[i] == m[i].text;
    Ok(Lookup(m, key).value)
  }

  /** The text drawn with `j` is the `j`-th value of the object: keys are
      unique, so looking the chosen key up lands on the chosen entry. */
  lemma ChooseTextReachesEvery(m: Mapping, j: nat)
    requires j < |m|
    ensures ChooseText(m, j) == Ok(m[j].text)
  {
    ModBelow(j, |m|);
    assert Choose(Keys(m), j) == Ok(m[j].key);
    assert Lookup(m, m[j].key) == Some(m[j].text);
  }

  // ---------------------------------------------------------------------
  // Pickers

  /** `get_random_environment`: a value of the partition the type label
      resolves to; a missing or empty partition is an error. */
  function GetRandomEnvironment(c: Catalog, motorcycleType: string, d: nat): (r: Result<string, SelectError>)
    ensures var key := PartitionKey(Classify(motorcycleType));
      && (r.Ok? <==> key in c.environments && |c.environments[key]| > 0)
      && (r.Ok? ==> r.value in Texts(c.environments[key]))
      && (key !in c.environments ==> r == Err(MissingPartition(key)))
  {
    var key := PartitionKey(Classify(motorcycleType));
    if key !in c.environments then Err(MissingPartition(key))
    else ChooseText(c.environments[key], d)
  }

  /** An unlisted type label draws exactly what a genuine city label draws. */
  lemma UnlistedLabelDrawsCityEnvironment(c: Catalog, motorcycleType: string, d: nat)
    requires !Listed(motorcycleType)
    ensures GetRandomEnvironment(c, motorcycleType, d) == GetRandomEnvironment(c, "Naked", d)
  {
    assert "Naked" in LabelsOf(City);
    ClassifyListed("Naked", City);
  }

  /** `get_random_action` */
  function GetRandomAction(c: Catalog, d: nat): (r: Result<string, SelectError>)
    ensures r.Ok? <==> |c.actions| > 0
    ensures r.Ok? ==> r.value in Texts(c.actions)
  {
    ChooseText(c.actions, d)
  }

  /** `get_random_lighting` */
  function GetRandomLighting(c: Catalog, d: nat): (r: Result<string, SelectError>)
    ensures r.Ok? <==> |c.lighting| > 0
    ensures r.Ok? ==> r.value in Texts(c.lighting)
  {
    ChooseText(c.lighting, d)
  }

  /** `get_random_style_extra` */
  function GetRandomStyleExtra(c: Catalog, d: nat): (r: Result<string, SelectError>)
    ensures r.Ok? <==> |c.styleExtras| > 0
    ensures r.Ok? ==> r.value in Texts(c.styleExtras)
  {
    ChooseText(c.styleExtras, d)
  }

  /** `get_random_composition` */
  function GetRandomComposition(c: Catalog, d: nat): (r: Result<string, SelectError>)
    ensures r.Ok? <==> |c.composition| > 0
    ensures r.Ok? ==> r.value in Texts(c.composition)
  {
    ChooseText(c.composition, d)
  }

  /** `get_random_camera_distance` */
  function GetRandomCameraDistance(c: Catalog, d: nat): (r: Result<string, SelectError>)
    ensures r.Ok? <==> |c.cameraDistance| > 0
    ensures r.Ok? ==> r.value in Texts(c.cameraDistance)
  {
    ChooseText(c.cameraDistance, d)
  }

  /** `get_random_weather` */
  function GetRandomWeather(c: Catalog, d: nat): (r: Result<string, SelectError>)
    ensures r.Ok? <==> |c.variety.weather| > 0
    ensures r.Ok? ==> r.value in c.variety.weather
  {
    Choose(c.variety.weather, d)
  }

  /** `get_random_time` */
  function GetRandomTime(c: Catalog, d: nat): (r: Result<string, SelectError>)
    ensures r.Ok? <==> |c.variety.time| > 0
    ensures r.Ok? ==> r.value in c.variety.time
  {
    Choose(c.variety.time, d)
  }

  /** `get_random_atmosphere` */
  function GetRandomAtmosphere(c: Catalog, d: nat): (r: Result<string, SelectError>)
    ensures r.Ok? <==> |c.variety.atmosphere| > 0
    ensures r.Ok? ==> r.value in c.variety.atmosphere
  {
    Choose(c.variety.atmosphere, d)
  }

  /** `get_random_background_variety` */
  function GetRandomBackgroundVariety(c: Catalog, d: nat): (r: Result<string, SelectError>)
    ensures r.Ok? <==> |c.variety.backgroundVariety| > 0
    ensures r.Ok? ==> r.value in c.variety.backgroundVariety
  {
    Choose(c.variety.backgroundVariety, d)
  }

  // ---------------------------------------------------------------------
  // Variety

  /** The pool of `generate_variety_elements`: weather, then time, then
      atmosphere, then background variety, each in list order. */
  function VarietyPool(v: VarietyElements): (r: seq<string>)
    ensures |r| == |v.weather| + |v.time| + |v.atmosphere| + |v.backgroundVariety|
    ensures r[..|v.weather|] == v.weather
    ensures r[|v.weather|..|v.weather| + |v.time|] == v.time
    ensures r[|v.weather| + |v.time|..|v.weather| + |v.time| + |v.atmosphere|] == v.atmosphere
    ensures r[|v.weather| + |v.time| + |v.atmosphere|..] == v.backgroundVariety
  {
    var r := v.weather + v.time + v.atmosphere + v.backgroundVariety;
    assert r == v.weather + (v.time + (v.atmosphere + v.backgroundVariety));
    assert r[|v.weather|..] == v.time + (v.atmosphere + v.backgroundVariety);
    assert r[|v.weather| + |v.time|..] == v.atmosphere + v.backgroundVariety;
    r
  }

  /** The draw at position 0 of `draws`; missing draws read as 0. */
  function FirstDraw(draws: seq<nat>): nat {
    if |draws| == 0 then 0 else draws[0]
  }

  function LaterDraws(draws: seq<nat>): seq<nat> {
    if |draws| == 0 then [] else draws[1..]
  }

  /** `random.sample(pool, k)`: `k` draws, each taking one element out of
      what is left. The result uses each pool position at most once, which
      is the statement that its multiset of values is contained in the
      pool's. */
  function Sample<T>(pool: seq<T>, k: nat, draws: seq<nat>): (r: seq<T>)
    requires k <= |pool|
    ensures |r| == k
    ensures multiset(r) <= multiset(pool)
    decreases k
  {
    if k == 0 then []
    else
      var i := FirstDraw(draws) % |pool|;
      var rest := pool[..i] + pool[i + 1..];
      assert pool == pool[..i] + [pool[i]] + pool[i + 1..];
      [pool[i]] + Sample(rest, k - 1, LaterDraws(draws))
  }

  /** Every sampled value is a pool value. */
  lemma SampleFromPool<T>(pool: seq<T>, k: nat, draws: seq<nat>)
    requires k <= |pool|
    ensures forall x :: x in Sample(pool, k, draws) ==> x in pool
  {
    var r := Sample(pool, k, draws);
    forall x | x in r
      ensures x in pool
    {
      assert multiset(r)[x] > 0;
    }
  }

  /** Sampling the whole pool yields a permutation of it. */
  lemma SampleAllIsPermutation<T>(pool: seq<T>, draws: seq<nat>)
    ensures multiset(Sample(pool, |pool|, draws)) == multiset(pool)
  {
    var r := Sample(pool, |pool|, draws);
    var diff := multiset(pool) - multiset(r);
    assert multiset(pool) == multiset(r) + diff;
    assert |multiset(pool)| == |multiset(r)| + |diff|;
  }

  /** `generate_variety_elements(n)`: `min(n, |pool|)` values drawn
      without reuse of a pool position; a negative `n` makes
      `random.sample` raise. */
  function GenerateVarietyElements(c: Catalog, n: int, draws: seq<nat>): (r: Result<seq<string>, SelectError>)
    ensures r.Ok? <==> n >= 0
    ensures n < 0 ==> r == Err(NegativeSampleSize)
    ensures r.Ok? ==> var pool := VarietyPool(c.variety);
      && |r.value| == (if n < |pool| then n else |pool|)
      && multiset(r.value) <= multiset(pool)
      && forall x :: x in r.value ==> x in pool
  {
    var pool := VarietyPool(c.variety);
    if n < 0 then Err(NegativeSampleSize)
    else
      var k := if n < |pool| then n else |pool|;
      SampleFromPool(pool, k, draws);
      Ok(Sample(pool, k, draws))
  }

  /** `add_variety_to_prompt`: the base, then `", "`, then the sampled
      values joined with `", "`. The separator is appended even when
      nothing was sampled. */
  function AddVarietyToPrompt(c: Catalog, base: string, n: int, draws: seq<nat>): (r: Result<string, SelectError>)
    ensures r.Ok? <==> n >= 0
    ensures r.Ok? ==> StartsWith(r.value, base + ", ")
    ensures r.Ok? ==> r.value[|base| + 2..] == Join(", ", GenerateVarietyElements(c, n, draws).value)
    ensures n == 0 ==> r == Ok(base + ", ")
  {
    var elements :- GenerateVarietyElements(c, n, draws);
    var sep := base + ", ";
    var s := sep + Join(", ", elements);
    assert s[..|sep|] == sep && s[|sep|..] == Join(", ", elements);
    assert n == 0 ==> elements == [] && s == sep;
    Ok(s)
  }

  /** The prompt with variety is the base, `", "` and the joined sample,
      nothing more. */
  lemma AddVarietyShape(c: Catalog, base: string, n: int, draws: seq<nat>)
    requires n >= 0
    ensures AddVarietyToPrompt(c, base, n, draws) ==
      Ok(base + ", " + Join(", ", GenerateVarietyElements(c, n, draws).value))
  {
    var r := AddVarietyToPrompt(c, base, n, draws).value;
    var k := |base| + 2;
    assert r == r[..k] + r[k..];
  }

  /** Asking for one element of a non-empty pool appends exactly one pool
      value after `", "`. */
  lemma AddOneVariety(c: Catalog, base: string, draws: seq<nat>) returns (x: string)
    requires |VarietyPool(c.variety)| > 0
    ensures x in VarietyPool(c.variety)
    ensures AddVarietyToPrompt(c, base, 1, draws) == Ok(base + ", " + x)
  {
    var elements := GenerateVarietyElements(c, 1, draws).value;
    AddVarietyShape(c, base, 1, draws);
    assert |elements| == 1;
    x := elements[0];
    assert elements == [x];
  }

  /** Asking for at least the whole pool appends every pool value once, in
      some order. */
  lemma AddWholePool(c: Catalog, base: string, n: int, draws: seq<nat>) returns (s: seq<string>)
    requires n >= |VarietyPool(c.variety)|
    ensures multiset(s) == multiset(VarietyPool(c.variety))
    ensures AddVarietyToPrompt(c, base, n, draws) == Ok(base + ", " + Join(", ", s))
  {
    var pool := VarietyPool(c.variety);
    AddVarietyShape(c, base, n, draws);
    s := GenerateVarietyElements(c, n, draws).value;
    assert s == Sample(pool, |pool|, draws);
    SampleAllIsPermutation(pool, draws);
  }

  // ---------------------------------------------------------------------
  // Combination

  /** One draw per `random.choice` made by `get_random_combination`. */
  datatype CombinationDraws = CombinationDraws(
    environment: nat, lighting: nat, styleExtra: nat, composition: nat,
    weather: nat, time: nat, atmosphere: nat, backgroundVariety: nat)

  const CombinationKeys: set<string> := {
    "environment", "lighting", "style_extra", "composition",
    "weather", "time", "atmosphere", "background_variety" }

  /** The eight values of a combination. */
  datatype Combination = Combination(
    environment: string, lighting: string, styleExtra: string, composition: string,
    weather: string, time: string, atmosphere: string, backgroundVariety: string)

  /** The dictionary `get_random_combination` returns. */
  function AsDict(cb: Combination): (m: map<string, string>)
    ensures m.Keys == CombinationKeys
    ensures m["environment"] == cb.environment && m["lighting"] == cb.lighting
    ensures m["style_extra"] == cb.styleExtra && m["composition"] == cb.composition
    ensures m["weather"] == cb.weather && m["time"] == cb.time
    ensures m["atmosphere"] == cb.atmosphere && m["background_variety"] == cb.backgroundVariety
  {
    map[
      "environment" := cb.environment,
      "lighting" := cb.lighting,
      "style_extra" := cb.styleExtra,
      "composition" := cb.composition,
      "weather" := cb.weather,
      "time" := cb.time,
      "atmosphere" := cb.atmosphere,
      "background_variety" := cb.backgroundVariety]
  }

  /** `get_random_combination`: one value per key, the pickers evaluated
      in the dictionary's order, so the first failing picker's error is
      the one raised. */
  function GetRandomCombination(c: Catalog, motorcycleType: string, d: CombinationDraws): (r: Result<map<string, string>, SelectError>)
    ensures r.Ok? <==>
      (&& GetRandomEnvironment(c, motorcycleType, d.environment).Ok?
       && |c.lighting| > 0 && |c.styleExtras| > 0 && |c.composition| > 0
       && |c.variety.weather| > 0 && |c.variety.time| > 0
       && |c.variety.atmosphere| > 0 && |c.variety.backgroundVariety| > 0)
    ensures GetRandomEnvironment(c, motorcycleType, d.environment).Err? ==>
      r == Err(GetRandomEnvironment(c, motorcycleType, d.environment).error)
    ensures r.Ok? ==> r.value.Keys == CombinationKeys
    ensures r.Ok? ==>
      var key := PartitionKey(Classify(motorcycleType));
      && key in c.environments
      && r.value["environment"] in Texts(c.environments[key])
      && r.value["lighting"] in Texts(c.lighting)
      && r.value["style_extra"] in Texts(c.styleExtras)
      && r.value["composition"] in Texts(c.composition)
      && r.value["weather"] in c.variety.weather
      && r.value["time"] in c.variety.time
      && r.value["atmosphere"] in c.variety.atmosphere
      && r.value["background_variety"] in c.variety.backgroundVariety
  {
    var environment :- GetRandomEnvironment(c, motorcycleType, d.environment);
    var lighting :- GetRandomLighting(c, d.lighting);
    var styleExtra :- GetRandomStyleExtra(c, d.styleExtra);
    var composition :- GetRandomComposition(c, d.composition);
    var weather :- GetRandomWeather(c, d.weather);
    var time :- GetRandomTime(c, d.time);
    var atmosphere :- GetRandomAtmosphere(c, d.atmosphere);
    var backgroundVariety :- GetRandomBackgroundVariety(c, d.backgroundVariety);
    Ok(AsDict(Combination(environment, lighting, styleExtra, composition,
                          weather, time, atmosphere, backgroundVariety)))
  }
}

=== FILE: text.dfy ===
/** The Python string built-ins the prompt code relies on: `str.isspace`,
    argument-less `str.strip`, the single-pass `str.replace("  ", " ")`
    and `str.join`. Strings are sequences of code points. */
module Text {

  /** Python's `str.isspace`: the code points `str.strip()` removes. */
  predicate IsWhitespace(c: char) {
    || c == ' ' || c == '\t' || c == '\n' || c == '\r'
    || c == '\U{000B}' || c == '\U{000C}'
    || ('\U{001C}' <= c <= '\U{001F}')
    || c == '\U{0085}' || c == '\U{00A0}' || c == '\U{1680}'
    || ('\U{2000}' <= c <= '\U{200A}')
    || c == '\U{2028}' || c == '\U{2029}' || c == '\U{202F}'
    || c == '\U{205F}' || c == '\U{3000}'
  }

  predicate AllWhitespace(s: string) {
    forall i :: 0 <= i < |s| ==> IsWhitespace(s[i])
  }

  /** Neither the first nor the last code point is whitespace. */
  predicate NoOuterWhitespace(s: string) {
    |s| == 0 || (!IsWhitespace(s[0]) && !IsWhitespace(s[|s| - 1]))
  }

  predicate StartsWith(s: string, prefix: string) {
    |prefix| <= |s| && s[..|prefix|] == prefix
  }

  /** Two consecutive ASCII spaces start at position `i`. */
  predicate DoubleSpaceAt(s: string, i: int) {
    0 <= i && i + 1 < |s| && s[i] == ' ' && s[i + 1] == ' '
  }

  predicate HasDoubleSpace(s: string) {
    exists i :: 0 <= i < |s| && DoubleSpaceAt(s, i)
  }

  /** A run of `k` ASCII spaces. */
  function Spaces(k: nat): (r: string)
    ensures |r| == k
    ensures forall i :: 0 <= i < k ==> r[i] == ' '
  {
    if k == 0 then [] else [' '] + Spaces(k - 1)
  }

  /** Length of the whitespace prefix of `s`. */
  function LeadingWhitespace(s: string): (k: nat)
    ensures k <= |s|
    ensures AllWhitespace(s[..k])
    ensures k < |s| ==> !IsWhitespace(s[k])
  {
    if |s| == 0 || !IsWhitespace(s[0]) then 0
    else
      var k := 1 + LeadingWhitespace(s[1..]);
      assert s[..k] == [s[0]] + s[1..][..k - 1];
      k
  }

  /** Position where the whitespace suffix of `s` begins. */
  function TrailingWhitespaceStart(s: string): (e: nat)
    ensures e <= |s|
    ensures AllWhitespace(s[e..])
    ensures 0 < e ==> !IsWhitespace(s[e - 1])
  {
    if |s| == 0 || !IsWhitespace(s[|s| - 1]) then |s|
    else
      var e := TrailingWhitespaceStart(s[..|s| - 1]);
      assert s[e..] == s[..|s| - 1][e..] + [s[|s| - 1]];
      e
  }

  /** Python's argument-less `str.strip()`. */
  function Strip(s: string): (r: string)
    ensures NoOuterWhitespace(r)
    ensures r == [] <==> AllWhitespace(s)
  {
    var k := LeadingWhitespace(s);
    var e := TrailingWhitespaceStart(s[k..]);
    assert s[k..][e..] == s[k + e..];
    assert s == s[..k] + s[k..];
    s[k..k + e]
  }

  /** What `strip()` keeps: the slice of `s` that starts right after the
      leading whitespace and leaves only whitespace behind it. */
  lemma StripIsSlice(s: string)
    ensures LeadingWhitespace(s) + |Strip(s)| <= |s|
    ensures Strip(s) == s[LeadingWhitespace(s)..LeadingWhitespace(s) + |Strip(s)|]
    ensures AllWhitespace(s[LeadingWhitespace(s) + |Strip(s)|..])
  {
    var k := LeadingWhitespace(s);
    var t := s[k..];
    var e := TrailingWhitespaceStart(t);
    assert Strip(s) == s[k..k + e] && |Strip(s)| == e;
    var tail := s[k + e..];
    assert tail == t[e..];
    forall i | 0 <= i < |tail|
      ensures IsWhitespace(tail[i])
    {
      assert tail[i] == t[e..][i];
    }
  }

  /** Stripping is idempotent, and a no-op on text without outer whitespace. */
  lemma StripFixesClean(s: string)
    requires NoOuterWhitespace(s)
    ensures Strip(s) == s
  {
    if |s| > 0 {
      assert LeadingWhitespace(s) == 0;
    }
  }

  lemma StripIdempotent(s: string)
    ensures Strip(Strip(s)) == Strip(s)
  {
    StripFixesClean(Strip(s));
  }

  /** Python's `s.replace("  ", " ")`: one left-to-right scan that
      replaces non-overlapping pairs of spaces by a single space. */
  function ReplaceDoubleSpace(s: string): (r: string)
    ensures |r| <= |s|
    ensures |s| > 0 ==> |r| > 0 && r[0] == s[0]
    decreases |s|
  {
    if |s| >= 2 && s[0] == ' ' && s[1] == ' ' then [' '] + ReplaceDoubleSpace(s[2..])
    else if |s| == 0 then []
    else [s[0]] + ReplaceDoubleSpace(s[1..])
  }

  /** The replace changes its input exactly when the input holds a pair
      of adjacent spaces. */
  lemma {:induction false} ReplaceIsIdentityIff(s: string)
    ensures ReplaceDoubleSpace(s) == s <==> !HasDoubleSpace(s)
    decreases |s|
  {
    if |s| >= 2 && s[0] == ' ' && s[1] == ' ' {
      assert DoubleSpaceAt(s, 0);
    } else if |s| > 0 {
      var t := s[1..];
      ReplaceIsIdentityIff(t);
      if HasDoubleSpace(s) {
        var i :| 0 <= i < |s| && DoubleSpaceAt(s, i);
        assert i > 0;
        assert DoubleSpaceAt(t, i - 1);
      }
      if HasDoubleSpace(t) {
        var i :| 0 <= i < |t| && DoubleSpaceAt(t, i);
        assert DoubleSpaceAt(s, i + 1);
      }
      assert s == [s[0]] + t;
    }
  }

  /** A run of `k` spaces comes out as ceil(k/2) spaces, not as one. */
  lemma {:induction false} ReplaceHalvesSpaceRun(k: nat)
    ensures ReplaceDoubleSpace(Spaces(k)) == Spaces((k + 1) / 2)
  {
    if k >= 2 {
      assert Spaces(k)[2..] == Spaces(k - 2);
      ReplaceHalvesSpaceRun(k - 2);
    } else if k == 1 {
      assert Spaces(1)[1..] == [];
    }
  }

  /** Three adjacent spaces anywhere leave a pair of spaces behind: the
      scan copies one space for the pair it meets and keeps the next. */
  lemma {:induction false} TripleSpaceLeavesPair(s: string, j: nat)
    requires j + 3 <= |s|
    requires s[j] == ' ' && s[j + 1] == ' ' && s[j + 2] == ' '
    ensures HasDoubleSpace(ReplaceDoubleSpace(s))
    decreases |s|
  {
    var r := ReplaceDoubleSpace(s);
    if s[0] == ' ' && s[1] == ' ' {
      var t := s[2..];
      assert r == [' '] + ReplaceDoubleSpace(t);
      if j >= 2 {
        TripleSpaceLeavesPair(t, j - 2);
        var i :| 0 <= i < |ReplaceDoubleSpace(t)| && DoubleSpaceAt(ReplaceDoubleSpace(t), i);
        assert DoubleSpaceAt(r, i + 1);
      } else {
        assert t[0] == ' ';
        assert DoubleSpaceAt(r, 0);
      }
    } else {
      var t := s[1..];
      assert r == [s[0]] + ReplaceDoubleSpace(t);
      TripleSpaceLeavesPair(t, j - 1);
      var i :| 0 <= i < |ReplaceDoubleSpace(t)| && DoubleSpaceAt(ReplaceDoubleSpace(t), i);
      assert DoubleSpaceAt(r, i + 1);
    }
  }

  /** The replace of a prefix is a prefix of the replace of the whole:
      text already scanned is never revisited. */
  lemma {:induction false} ReplacePrefix(a: string, b: string)
    ensures StartsWith(ReplaceDoubleSpace(a + b), ReplaceDoubleSpace(a))
    decreases |a|
  {
    var s := a + b;
    if |a| == 0 {
    } else if |a| >= 2 && a[0] == ' ' && a[1] == ' ' {
      assert s[2..] == a[2..] + b;
      ReplacePrefix(a[2..], b);
    } else if |a| == 1 {
      if |s| >= 2 && s[0] == ' ' && s[1] == ' ' {
      } else {
        assert s[1..] == b;
      }
    } else {
      assert s[1..] == a[1..] + b;
      ReplacePrefix(a[1..], b);
    }
  }

  /** Text that does not end in a space is scanned to its end on its own:
      the replace of a concatenation is the concatenation of the
      replaces. */
  lemma {:induction false} ReplaceSplit(a: string, b: string)
    requires a == [] || a[|a| - 1] != ' '
    ensures ReplaceDoubleSpace(a + b) == ReplaceDoubleSpace(a) + ReplaceDoubleSpace(b)
    decreases |a|
  {
    var s := a + b;
    if |a| == 0 {
      assert s == b;
    } else if |a| >= 2 && a[0] == ' ' && a[1] == ' ' {
      assert s[2..] == a[2..] + b;
      ReplaceSplit(a[2..], b);
    } else if |a| == 1 {
      assert s[1..] == b;
    } else {
      assert s[1..] == a[1..] + b;
      ReplaceSplit(a[1..], b);
    }
  }

  /** One step of the scan: a character that does not open a pair of
      spaces is copied. */
  lemma ReplaceStep(c: char, rest: string)
    requires c != ' ' || rest == [] || rest[0] != ' '
    ensures ReplaceDoubleSpace([c] + rest) == [c] + ReplaceDoubleSpace(rest)
  {
    assert ([c] + rest)[1..] == rest;
  }

  /** Text without a pair of spaces passes through the replace unchanged,
      provided it does not end in a space that the rest would pair with. */
  lemma {:induction false} ReplaceCleanPrefix(a: string, b: string)
    requires !HasDoubleSpace(a)
    requires |a| > 0 && a[|a| - 1] == ' ' ==> |b| == 0 || b[0] != ' '
    ensures ReplaceDoubleSpace(a + b) == a + ReplaceDoubleSpace(b)
    decreases |a|
  {
    if |a| > 0 {
      var t := a[1..];
      NoDoubleSpaceSlice(a, 1, |a|);
      assert a[1..|a|] == t;
      ReplaceCleanPrefix(t, b);
      assert !DoubleSpaceAt(a, 0);
      assert a + b == [a[0]] + (t + b);
      ReplaceStep(a[0], t + b);
      assert a == [a[0]] + t;
    } else {
      assert a + b == b;
    }
  }

  /** Python's `sep.join(parts)`. */
  function Join(sep: string, parts: seq<string>): string
  {
    if |parts| == 0 then []
    else if |parts| == 1 then parts[0]
    else parts[0] + sep + Join(sep, parts[1..])
  }

  /** A join of non-empty parts starts with the first character of the
      first part and ends with the last character of the last part. */
  lemma {:induction false} JoinEdges(sep: string, parts: seq<string>)
    requires |parts| > 0
    requires forall i :: 0 <= i < |parts| ==> parts[i] != []
    ensures |Join(sep, parts)| > 0
    ensures Join(sep, parts)[0] == parts[0][0]
    ensures Join(sep, parts)[|Join(sep, parts)| - 1] == parts[|parts| - 1][|parts[|parts| - 1]| - 1]
  {
    if |parts| > 1 {
      JoinEdges(sep, parts[1..]);
      assert Join(sep, parts) == parts[0] + (sep + Join(sep, parts[1..]));
    }
  }

  /** Appending a part to a non-empty list appends the separator and the
      part to the join. */
  lemma {:induction false} JoinSnoc(sep: string, parts: seq<string>, p: string)
    requires |parts| > 0
    ensures Join(sep, parts + [p]) == Join(sep, parts) + sep + p
  {
    var s := parts + [p];
    assert s[1..] == parts[1..] + [p];
    if |parts| > 1 {
      JoinSnoc(sep, parts[1..], p);
    } else {
      assert s[1..] == [p];
    }
  }

  /** The parts Python's `if p` keeps: the non-empty ones, in order. */
  function NonEmpty(parts: seq<string>): (r: seq<string>)
    ensures forall i :: 0 <= i < |r| ==> r[i] != [] && r[i] in parts
    ensures forall p :: p in parts && p != [] ==> p in r
  {
    if |parts| == 0 then []
    else if parts[0] == [] then NonEmpty(parts[1..])
    else [parts[0]] + NonEmpty(parts[1..])
  }

  /** With no empty part the filter keeps the list as it is. */
  lemma {:induction false} NonEmptyKeepsAll(parts: seq<string>)
    requires forall i :: 0 <= i < |parts| ==> parts[i] != []
    ensures NonEmpty(parts) == parts
  {
    if |parts| > 0 {
      NonEmptyKeepsAll(parts[1..]);
      assert parts == [parts[0]] + parts[1..];
    }
  }

  /** Filtering distributes over concatenation. */
  lemma {:induction false} NonEmptyConcat(a: seq<string>, b: seq<string>)
    ensures NonEmpty(a + b) == NonEmpty(a) + NonEmpty(b)
  {
    if |a| > 0 {
      assert (a + b)[1..] == a[1..] + b;
      NonEmptyConcat(a[1..], b);
    } else {
      assert a + b == b;
    }
  }

  /** An empty part, wherever it sits, leaves no separator behind: the
      join is the same as without it. */
  lemma JoinSkipsEmpty(sep: string, a: seq<string>, b: seq<string>)
    ensures Join(sep, NonEmpty(a + [[]] + b)) == Join(sep, NonEmpty(a + b))
  {
    var empty: seq<string> := [[]];
    assert empty[1..] == [];
    assert NonEmpty(empty) == [];
    NonEmptyConcat(a + empty, b);
    NonEmptyConcat(a, empty);
    NonEmptyConcat(a, b);
    assert NonEmpty(a + empty) == NonEmpty(a);
    assert NonEmpty(a + empty + b) == NonEmpty(a + b);
  }

  /** A part that joins cleanly: non-empty, no outer whitespace and no
      pair of spaces inside. */
  predicate CleanPart(p: string) {
    p != [] && NoOuterWhitespace(p) && !HasDoubleSpace(p)
  }

  lemma NoDoubleSpaceConcat(a: string, b: string)
    requires !HasDoubleSpace(a) && !HasDoubleSpace(b)
    requires |a| > 0 && a[|a| - 1] == ' ' ==> |b| == 0 || b[0] != ' '
    ensures !HasDoubleSpace(a + b)
  {
    var s := a + b;
    if HasDoubleSpace(s) {
      var i :| 0 <= i < |s| && DoubleSpaceAt(s, i);
      if i + 1 < |a| {
        assert DoubleSpaceAt(a, i);
      } else if i >= |a| {
        assert DoubleSpaceAt(b, i - |a|);
      }
    }
  }

  lemma NoDoubleSpaceSlice(s: string, i: nat, j: nat)
    requires i <= j <= |s|
    requires !HasDoubleSpace(s)
    ensures !HasDoubleSpace(s[i..j])
  {
    if HasDoubleSpace(s[i..j]) {
      var k :| 0 <= k < |s[i..j]| && DoubleSpaceAt(s[i..j], k);
      assert DoubleSpaceAt(s, i + k);
    }
  }

  /** Joining clean parts with one space yields clean text. */
  lemma {:induction false} JoinCleanParts(parts: seq<string>)
    requires |parts| > 0
    requires forall i :: 0 <= i < |parts| ==> CleanPart(parts[i])
    ensures CleanPart(Join(" ", parts))
    ensures Join(" ", parts)[0] == parts[0][0]
  {
    if |parts| > 1 {
      var rest := Join(" ", parts[1..]);
      JoinCleanParts(parts[1..]);
      var p := parts[0];
      assert !DoubleSpaceAt(" ", 0);
      NoDoubleSpaceConcat(" ", rest);
      NoDoubleSpaceConcat(p, " " + rest);
      assert p + " " + rest == p + (" " + rest);
    }
  }
}

=== FILE: utils.dfy ===
/** `extraer_url_imagen` and the string built by `imagen_a_data_url`. */
module Utils {
  import opened Wrappers
  import opened Text

  // ---------------------------------------------------------------------
  // Remote result shapes

  /** The Python values `extraer_url_imagen` tells apart. An object that
      exposes a `url` attribute is always truthy; every other value
      (numbers, booleans, objects without `url`) is `Other`, with its
      Python truthiness. */
  datatype Value =
    | Null
    | Str(s: string)
    | List(items: seq<Value>)
    | Dict(entries: map<string, Value>)
    | ObjWithUrl(url: Value)
    | Other(truthy: bool)

  /** Python's `bool(v)`. */
  predicate Truthy(v: Value) {
    match v
    case Null => false
    case Str(s) => s != []
    case List(items) => |items| > 0
    case Dict(entries) => |entries| > 0
    case ObjWithUrl(_) => true
    case Other(t) => t
  }

  /** The two `RuntimeError`s: no output at all, or an output shape with
      no recognisable URL. */
  datatype ExtractError = NoOutput | NoImageUrl

  /** `resultado.get("output")` */
  function Output(result: map<string, Value>): Value {
    if "output" in result then result["output"] else Null
  }

  /** `output.get("url")` */
  function DictUrl(entries: map<string, Value>): Value {
    if "url" in entries then entries["url"] else Null
  }

  /** `extraer_url_imagen`: a falsy output is an error; then, in order, a
      string is returned as is, a list yields its first element if that
      is a string or else that element's `url`, a mapping yields
      `get("url")` (possibly `None`), an object yields its `url`, and
      every other shape is an error. */
  function ExtractImageUrl(result: map<string, Value>): (r: Result<Value, ExtractError>)
    ensures r == Err(NoOutput) <==> !Truthy(Output(result))
    ensures r == Err(NoImageUrl) <==>
      var out := Output(result);
      Truthy(out) && (out.Other? || (out.List? && !out.items[0].Str? && !out.items[0].ObjWithUrl?))
    ensures Truthy(Output(result)) && Output(result).Str? ==> r == Ok(Output(result))
    ensures var out := Output(result);
      Truthy(out) && out.List? && out.items[0].Str? ==> r == Ok(out.items[0])
    ensures var out := Output(result);
      Truthy(out) && out.List? && out.items[0].ObjWithUrl? ==> r == Ok(out.items[0].url)
    ensures var out := Output(result);
      Truthy(out) && out.Dict? ==> r == Ok(DictUrl(out.entries))
    ensures Output(result).ObjWithUrl? ==> r == Ok(Output(result).url)
  {
    var output := Output(result);
    if !Truthy(output) then Err(NoOutput)
    else if output.Str? then Ok(output)
    else if output.List? && output.items[0].Str? then Ok(output.items[0])
    else if output.List? && output.items[0].ObjWithUrl? then Ok(output.items[0].url)
    else if output.Dict? then Ok(DictUrl(output.entries))
    else if output.ObjWithUrl? then Ok(output.url)
    else Err(NoImageUrl)
  }

  /** The shapes in which a provider can deliver one image URL. */
  datatype Delivery =
    | AsString
    | AsList(more: seq<Value>)
    | AsListOfObjects(more: seq<Value>)
    | AsDict(others: map<string, Value>)
    | AsObject

  /** The output a provider builds around `url` in the given shape. */
  function Deliver(shape: Delivery, url: string): Value {
    match shape
    case AsString => Str(url)
    case AsList(more) => List([Str(url)] + more)
    case AsListOfObjects(more) => List([ObjWithUrl(Str(url))] + more)
    case AsDict(others) => Dict(others["url" := Str(url)])
    case AsObject => ObjWithUrl(Str(url))
  }

  /** Whatever shape a non-empty URL is delivered in, extraction gives it
      back. */
  lemma ExtractDelivered(shape: Delivery, url: string)
    requires url != []
    ensures ExtractImageUrl(map["output" := Deliver(shape, url)]) == Ok(Str(url))
  {
    var result := map["output" := Deliver(shape, url)];
    assert Output(result) == Deliver(shape, url);
    if shape.AsDict? {
      assert "url" in Deliver(shape, url).entries;
    }
  }

  /** A mapping without a `url` key is not an error: it yields `None`. */
  lemma DictWithoutUrlYieldsNull(entries: map<string, Value>)
    requires |entries| > 0 && "url" !in entries
    ensures ExtractImageUrl(map["output" := Dict(entries)]) == Ok(Null)
  {
    assert Output(map["output" := Dict(entries)]) == Dict(entries);
  }

  /** A list whose first element is a mapping is an error even when that
      mapping holds a `url`: only attribute access is tried on it. */
  lemma ListOfDictsIsError(entries: map<string, Value>, more: seq<Value>)
    ensures ExtractImageUrl(map["output" := List([Dict(entries)] + more)]) == Err(NoImageUrl)
  {
    assert Output(map["output" := List([Dict(entries)] + more)]) == List([Dict(entries)] + more);
  }

  // ---------------------------------------------------------------------
  // Data URLs

  const DefaultMime: string := "image/png"

  /** `mime_type or "image/png"`: `None` and the empty string both fall
      back. */
  function EffectiveMime(guess: Option<string>): (m: string)
    ensures m != []
    ensures guess.None? || guess.value == [] ==> m == DefaultMime
    ensures guess.Some? && guess.value != [] ==> m == guess.value
  {
    if guess.None? || guess.value == [] then DefaultMime else guess.value
  }

  const Scheme: string := "data:"
  const Base64Marker: string := ";base64,"

  /** `f"data:{mime_type};base64,{imagen_data}"`, with the MIME guess and
      the base64 payload as inputs. */
  function DataUrl(guess: Option<string>, payload: string): string {
    Scheme + (EffectiveMime(guess) + (Base64Marker + payload))
  }

  /** Position of the first `c` in `s`, or `|s|` when there is none. */
  function IndexOf(s: string, c: char): (i: nat)
    ensures i <= |s|
    ensures forall j :: 0 <= j < i ==> s[j] != c
    ensures i < |s| ==> s[i] == c
  {
    if |s| == 0 || s[0] == c then 0 else 1 + IndexOf(s[1..], c)
  }

  /** Reads a data URL back into its MIME type and payload: the text
      between the scheme and the first `;`, which must open the base64
      marker, and everything after the marker. */
  function ParseDataUrl(s: string): Option<(string, string)> {
    if !StartsWith(s, Scheme) then None
    else
      var rest := s[|Scheme|..];
      var i := IndexOf(rest, ';');
      if StartsWith(rest[i..], Base64Marker) then Some((rest[..i], rest[i + |Base64Marker|..]))
      else None
  }

  lemma ConcatSplit(a: string, b: string)
    ensures StartsWith(a + b, a)
    ensures (a + b)[|a|..] == b
  {
    assert (a + b)[..|a|] == a;
  }

  lemma {:induction false} IndexOfConcat(a: string, b: string, c: char)
    requires c !in a
    requires |b| > 0 && b[0] == c
    ensures IndexOf(a + b, c) == |a|
  {
    if |a| > 0 {
      assert (a + b)[1..] == a[1..] + b;
      IndexOfConcat(a[1..], b, c);
    }
  }

  /** Parsing undoes building whenever the MIME type holds no `;`, which
      the default does not. */
  lemma DataUrlRoundTrip(guess: Option<string>, payload: string)
    requires ';' !in EffectiveMime(guess)
    ensures ParseDataUrl(DataUrl(guess, payload)) == Some((EffectiveMime(guess), payload))
  {
    var mime := EffectiveMime(guess);
    var tail := Base64Marker + payload;
    var rest := mime + tail;
    ConcatSplit(Scheme, rest);
    assert tail[0] == ';';
    IndexOfConcat(mime, tail, ';');
    ConcatSplit(mime, tail);
    ConcatSplit(Base64Marker, payload);
    assert rest[..|mime|] == mime;
  }

  /** Without a guess, or with an empty one, the MIME type is `image/png`,
      and that is what the data URL carries. */
  lemma DataUrlDefaultsToPng(payload: string)
    ensures EffectiveMime(None) == "image/png" && EffectiveMime(Some("")) == "image/png"
    ensures ParseDataUrl(DataUrl(None, payload)) == Some(("image/png", payload))
  {
    DataUrlRoundTrip(None, payload);
  }

  lemma Rejoin(s: string, n: nat)
    requires n <= |s|
    ensures s[..n] + s[n..] == s
  {
  }

  /** Everything that parses is a data URL as built here. */
  lemma ParsedIsDataUrl(s: string, mime: string, payload: string)
    requires ParseDataUrl(s) == Some((mime, payload))
    ensures s == Scheme + (mime + (Base64Marker + payload))
    ensures mime != [] ==> s == DataUrl(Some(mime), payload)
    ensures ';' !in mime
  {
    var rest := s[|Scheme|..];
    var i := IndexOf(rest, ';');
    var tail := rest[i..];
    assert mime == rest[..i] && payload == tail[|Base64Marker|..];
    Rejoin(s, |Scheme|);
    Rejoin(rest, i);
    Rejoin(tail, |Base64Marker|);
    assert s == Scheme + (mime + (Base64Marker + payload));
  }
}

=== FILE: wrappers.dfy ===
/** Where the Python code returns `None` or raises an exception, the
    model returns one of these two values instead. */
module Wrappers {

  /** A Python value that may be `None`. */
  datatype Option<+T> = None | Some(value: T)

  /** Either a value or the error the Python code would have raised. */
  datatype Result<+T, +E> = Ok(value: T) | Err(error: E) {

    predicate IsFailure() {
      Err?
    }

    function PropagateFailure<U>(): Result<U, E>
      requires Err?
    {
      Err(error)
    }

    function Extract(): T
      requires Ok?
    {
      value
    }
  }
}
